=== FILE: README.md ===
# greek-snap rules engine in Dafny

A model of the rules core of greek-snap, a small Snap-style card game. Two sides
play cards from a ten-card hand and deck onto three locations over five turns. At
each location, the side with more total power takes it, and the side that takes
more locations wins. The model covers five parts:

- **`Game`** (`game.dfy`) is the match engine of `game.py`. The match is an
  immutable `State` record, and `draw_cards`, `play_card`, `process_on_reveal_ability`,
  `end_turn`, the power functions and `calculate_winner` are pure functions.
  `play_card` returns a `Reply(ok, reason, state)`. The shuffled decks and the
  random choice of locations are arguments of `NewGame`. The decks may come in any
  order, and what holds only for a shuffle of the card table (three cards in hand,
  seven in the deck) is stated for that case. The locations are three distinct
  indices of the location table.
- **`GameFacts`** (`game_facts.dfy`) holds the lemmas about the engine that relate
  several calls:
  - draws compose;
  - the on-reveal queue resolves as one draw per side;
  - no card is created or lost;
  - the invariant (turn bounds, row capacity, energy, winner) is kept;
  - five `end_turn` calls finish a match;
  - power does not depend on row order;
  - exchanging the sides exchanges the winner.
- **`Effects`** (`effects.dfy`) is the effect resolver `EffectHandler` of
  `effect_system.py`. It covers the cost modifier, the power modifier, the
  location-draw queue, the random destroy and the ability dispatch. `game.py` never
  calls it, so it works on an abstract `Table` holding the two hands and decks and
  the location-draw queue. The random sample of the destroy is an argument `order`,
  required to be a sample the source could draw: distinct available indices, largest
  first, as the pop loop takes them.
- **`Matchmaking`** (`matchmaking.dfy`) is `MatchmakingSystem` of `matchmaking.py`,
  taken one call at a time: the FIFO queue, the game counter, `active_games` and
  `player_to_game`. Game creation is bookkeeping only.
- **`Xp`** (`xp.dfy`) covers the level table of `xp_system.py`:
  the level for a number of points, the points to the next level, the rewards per
  level, the pending rewards and the XP sources.
- **`Cards`** and **`Locations`** are the static catalogs of `cards_data.py` and
  `locations_data.py`. **`Board`** holds the sides and location rows, **`Seqs`** holds
  sums, reversal and index removal over sequences, and **`Options`** holds the
  option type.

Card dictionaries become a `Card` datatype. The `ability_effect` dictionary becomes
a closed variant `Effect`, with `OtherEffect` for a type string no handler knows. A
location is a `Lane`. Its `effectType` is `None` for the text-only locations of
`game.py`, which have no `effect_type` key. It is the catalog's effect type for
locations built from `locations_data.py`.

No Python module of the game imports `effect_system.py`. `game.py` imports only
`random` (game.py:1), and `play_card` and the power functions compute costs and
powers themselves (game.py:159-268). So `Game` ignores location effects, as
`game.py` does, and `Effects` models the resolver on its own. The "when alone"
ability type and the `player1_ready`/`player2_ready` flags occur only in the browser
scripts (static/js/multiplayer_game.js:154-167 and :909,
static/js/single_player_game.js:814), which are not modelled.

## Model

| member | source | states |
|---|---|---|
| Cards.CatalogIds | cards_data.py:4-130 | The catalog holds ten cards with ids 1 to 10 in list order, so no two cards share an id. |
| Cards.CatalogWellShaped | cards_data.py:4-130 | Every catalog card has ability type "none" exactly when it has no effect, and its power boosts target the other cards. Its on-reveal effect draws at least one card. Its ongoing effect is a boost or an opponent reduction. Its power is not negative and its cost lies in 0..6. |
| Locations.CatalogWellFormed | locations_data.py:4-53 | There are exactly four locations with pairwise distinct names. Each effect type is a key of `LOCATION_EFFECT_TYPES` and each effect value is positive. |
| Locations.CatalogEffects | locations_data.py:4-33 | Only the first location (Asgard) reduces costs, by 1, and the single-card-bonus location gives 5. |
| Game.GameCharactersCount | game.py:4-95 | `game.py`'s own card table holds ten cards with the ids 1 to 10 in list order, so no card occurs twice in it. |
| GameFacts.TablesAgree | game.py:4-95 | `game.py`'s card table equals the `cards_data.py` catalog on every modelled field. |
| Game.DrawFrom | game.py:141-144 | The pop-and-append loop of `draw_cards`. It only computes; Game.DrawFromMoves states what it moves and GameFacts.DrawFromCompose that two runs are one. |
| Game.Draw | game.py:137-144 | `draw_cards` on one side's hand and deck. It only computes; Game.DrawMoves states its effect and GameFacts.DrawKeepsCards that it keeps the side's cards. |
| Game.DrawFromMoves | game.py:137-144 | The draw loop leaves the deck without its last `n` cards and appends those cards to the hand in pop order (last card first). Here `n` is `count` capped by the deck size, and none when `count <= 0`. |
| Game.DrawMoves | game.py:137-144 | `draw_cards` on one side moves exactly `n` cards from the end of the deck to the end of the hand in pop order. The hand grows by `n`, no card is created or lost, and the energy counters are untouched. |
| Game.DrawFor | game.py:137-144 | Drawing for one side changes only that side's hand and deck. The other side and the board stay as they were. |
| GameFacts.DrawFromCompose | game.py:141-144 | Drawing `a` cards and then `b` cards gives the same hand and deck as drawing `a + b` at once. |
| GameFacts.DrawCompose | game.py:137-144 | On a side, two successive draws are one draw of their total. |
| GameFacts.DrawKeepsCards | game.py:137-144 | A draw keeps the multiset of a side's hand and deck. |
| Game.PlayCard | game.py:159-201 | The failures come in order: "Game is over", an invalid card index, not enough energy, then a full location. A failure leaves the state unchanged. A play succeeds exactly when none of the four checks fails. On success the side pays exactly the card's cost, so energy stays at least 0. The card leaves the hand at its index and is appended to that side's row, which then holds at most 4 cards. The location keeps its name, its effect fields and the other side's row. An on-reveal card whose effect is not a power reduction is queued. Nothing else changes. |
| GameFacts.MoveKeepsCards | game.py:180-189 | Moving one card from a side's hand to the end of its row at one location keeps every card that side owns. |
| GameFacts.PlayCardKeepsCards | game.py:159-201 | `play_card`, successful or not, keeps the multiset of cards each side owns across hand, deck and board. |
| GameFacts.PlayCardValid | game.py:159-201 | `play_card` keeps the invariant. The turn stays in 1..5, there are three locations with at most four cards per side, energy is not negative, and a winner exists exactly when the game is over. |
| Game.ProcessOnReveal | game.py:203-213 | Resolving a queued card draws its `draw_cards` value for its side. It does nothing for any other card or effect. |
| Game.ResolveReveals | game.py:271-274 | Resolving the queue changes neither the board, the turn, the winner nor any energy counter. |
| GameFacts.ResolveRevealsDraws | game.py:270-274 | Resolving the queue in play order is the same as one draw per side of the total its entries request. |
| Game.EndTurn | game.py:270-293 | The queue ends up empty and the locations are untouched. Before the last turn, the turn advances by one and each side's energy becomes `min(new turn, 6)` plus its energy at the call, and that old energy is stored as unused energy. On the last turn, the game ends with the winner `calculate_winner` gives. |
| GameFacts.EndTurnDraws | game.py:270-290 | After `end_turn`, a side's hand and deck are those of one draw of its queued on-reveal draws, plus one more card when the game goes on. |
| GameFacts.NextTurnDraws | game.py:276-290 | Starting the next turn draws one card for each side, whatever the energy update did. |
| GameFacts.EndTurnKeepsCards | game.py:270-293 | `end_turn` keeps the multiset of cards each side owns. |
| GameFacts.EndTurnKeepsSide | game.py:270-293 | For one side, `end_turn` keeps its hand and deck multiset and its board cards. |
| GameFacts.EndTurnValid | game.py:270-293 | `end_turn` keeps the invariant. In particular the turn never passes 5, and a winner is set exactly when the game ends. |
| GameFacts.GameOverIsFinal | game.py:291-293 | Ending the last turn ends the game with a winner, and every later `play_card` fails with "Game is over" and changes nothing. |
| GameFacts.EndTurnsFinish | game.py:276-293 | From any valid state, `5 - turn + 1` calls of `end_turn` reach a finished game with a winner and keep the invariant. From turn 1 that is five calls. |
| Game.NewGame | game.py:110-135 | A new match is on turn 1, not over, with an empty queue and energy 1 per side. Each side's hand and deck together are exactly the deck it was given. For a shuffle of the card table, that is three cards in hand and seven in the deck. There are three locations taken from the location table at the chosen indices, with empty rows. |
| Game.OpeningSide | game.py:113-132 | The opening draw takes up to three cards, and keeps the same cards overall, with one energy and no unused energy. From a shuffle of the card table it leaves three cards in hand and seven in the deck. |
| Game.OpeningLanes | game.py:146-157 | The three locations carry the names of the chosen table entries and start with no cards on either side. |
| GameFacts.NewGameValid | game.py:110-135 | A new match satisfies the invariant. |
| GameFacts.NewGameCards | game.py:110-135 | In a new match, each side owns exactly the cards of its deck. |
| Game.SumBoosts | game.py:250-258 | The boost loop adds up the values of the ongoing other-card boosts of the other cards in the row, where "other" compares card values. |
| Game.SumReductions | game.py:260-266 | The reduction loop adds up the ongoing opponent-reduction values of the opposing row. |
| Game.CardPower | game.py:245-268 | `calculate_card_power`. A card alone at a location, facing no opposing card, has its base power. Game.ComputeLocationPower, GameFacts.CardPowerOrderIndependent and GameFacts.DealtRows state the rest. |
| Game.LocationPower | game.py:215-243 | `calculate_location_power`. A side with no cards at a location has power 0 there. Game.ComputeLocationPower and GameFacts.LocationPowerOrderIndependent state the rest. |
| Game.ComputeLocationPower | game.py:215-243 | The nested loops of `calculate_location_power` compute the sum over the side's row of each card's `calculate_card_power`. That is base power plus other own boosts minus opposing reductions, with no floor. |
| GameFacts.BoostFromOthers | game.py:250-258 | In a row without repeated cards, the boost a card receives by value comparison is the boosts of the row with that card taken out. |
| GameFacts.NewGameDealt | game.py:110-135 | A match dealt from two shuffles of the card table starts with each side owning exactly one copy of every card. |
| GameFacts.PlayCardKeepsDealt | game.py:159-201 | `play_card`, successful or not, keeps each side owning exactly one copy of every card. |
| GameFacts.EndTurnKeepsDealt | game.py:270-293 | `end_turn` keeps each side owning exactly one copy of every card. |
| GameFacts.DealtRows | game.py:250-258 | In a match where each side owns one copy of every card, no row holds a card twice. So the boost a card receives by value comparison is the boosts of the rest of its row. |
| GameFacts.CardPowerOrderIndependent | game.py:245-268 | A card's power depends only on the multisets of both rows at its location, not on their order. |
| GameFacts.LocationPowerOrderIndependent | game.py:215-243 | A side's total power at a location depends only on the multisets of the two rows. |
| GameFacts.BoostScenario | game.py:245-268 | Iron Man (5, +2 to others) alone keeps power 5. With Wasp (1) beside it, Wasp has 3 and Iron Man still 5, and the side totals 8. |
| Game.Tally | game.py:299-306 | The scoring loop adds, to each running score, the number of locations where that side has strictly more power. |
| Game.CalculateWinner | game.py:295-313 | The player wins exactly when it takes more locations, the opponent wins exactly when it takes more, and the result is a tie exactly when both take the same number. |
| GameFacts.PointsBounded | game.py:299-306 | No location is credited to both sides, so the two scores add up to at most the number of locations. |
| GameFacts.SwappedLocationPower | game.py:215-243 | With the two rows of a location exchanged, each side's power is what the other side had. |
| GameFacts.SwappedPoints | game.py:299-306 | With the rows exchanged everywhere, each side scores what the other side scored. |
| GameFacts.WinnerSymmetric | game.py:295-313 | Exchanging the two sides' cards at every location exchanges the player and opponent results, and a tie stays a tie. |
| Effects.DrawSide | effect_system.py:96-99 | The resolver's draw changes only the drawing side's hand and deck, as `draw_cards` does, and leaves the location-draw queue alone. |
| Effects.CostModifier | effect_system.py:49-57 | A cost-reduction location lowers a card's cost by its value. Every other location type, and a location without a type, leaves the cost as it is. |
| Effects.CatalogCostModifiers | effect_system.py:49-57 | Of the catalog locations, only Asgard changes a cost, lowering every card's cost by exactly 1. |
| Effects.ApplyLocationEffect | effect_system.py:30-40 | The location-draw queue grows by one exactly when the location is a draw location. The new last entry is the playing side with the location's value, and the earlier entries are kept. Any other location changes nothing. |
| Effects.DrawQueuedTotals | effect_system.py:42-47 | Drawing the queue entry by entry in accrual order is the same as one draw per side of the total its entries request. |
| Effects.ProcessPendingLocationDraws | effect_system.py:42-47 | Each side draws what its queued entries request in total (capped by its deck), and the queue is left empty. |
| Effects.ProcessPendingKeepsCards | effect_system.py:42-47 | Processing the queue grows each hand by the number of cards actually drawn, and creates or loses no card. |
| Effects.SumAllReductions | effect_system.py:87-92 | The reduce-all loop adds up every ongoing reduce-all value over both rows. |
| Effects.NoReduceAllSum | effect_system.py:87-92 | Cards without a reduce-all effect take nothing in the reduce-all loop. |
| Effects.PowerModifier | effect_system.py:59-94 | `calculate_card_power_modifier`. A card alone at a location without an effect type, facing no opposing card, is changed only by its own reduce-all value. Effects.ComputePowerModifier, Effects.PowerModifierOrderIndependent and Effects.PowerModifierAgreesWithGame state the rest. |
| Effects.ComputePowerModifier | effect_system.py:59-94 | The modifier is the sum of four parts. It adds the location value at a power-boost location, or at a single-card-bonus location when the own side has exactly one card. It adds the other own cards' boosts and subtracts the opposing reductions. It also subtracts every reduce-all value on either side, the card's own included. |
| Effects.PowerModifierOrderIndependent | effect_system.py:71-94 | The modifier depends only on the multisets of the two card lists, not on their order. |
| Effects.PowerModifierAgreesWithGame | effect_system.py:59-94 | At a location without an effect type and without reduce-all cards, base power plus the modifier is exactly `calculate_card_power` of `game.py`. |
| Effects.SingleCardBonusScenario | effect_system.py:64-69 | At Sanctum Sanctorum, Hulk alone on its side gets +5, and gets nothing once Wasp joins it. |
| Effects.AvailableIndices | effect_system.py:115-119 | The available indices are exactly the indices of the row's cards that differ from the triggering card (all of them when there is none), in ascending order. |
| Effects.DestroyedCount | effect_system.py:121-123 | The number destroyed is `min(count, available)` with the count defaulting to 1, and none when that is zero or less. |
| Effects.DestroyPlanExists | effect_system.py:121-125 | For every destroy there is a sample of the right size to pop, so the destroy is never stuck. |
| Effects.SparesTrigger | effect_system.py:115-128 | Popping only available indices keeps every copy of the triggering card. |
| Seqs.PopAll | effect_system.py:127-128 | Popping the sampled indices largest first removes exactly one element per index and creates none. |
| Seqs.PopAllSpares | effect_system.py:127-128 | An element at none of the popped indices keeps its count. |
| Seqs.PopAllKeepsOrder | effect_system.py:127-128 | Popping largest first keeps exactly the elements at the other indices, in their original order. |
| Effects.Destroy | effect_system.py:101-128 | The destroy works only on the targeted row, own side by default and the other side for any other target. That row loses exactly the destroyed count of cards, only at sampled indices, and the survivors keep their order. No card equal to the triggering card is removed. The other row and the location's own fields (name, effect text, effect type and value) are unchanged. |
| Effects.ApplyCardAbility | effect_system.py:7-28 | A missing effect does nothing. `draw_cards` draws its value for the side and `destroy_card` destroys at the location with the card as trigger. Every other effect type does nothing. |
| Effects.AbilityKeepsCards | effect_system.py:7-28 | Resolving an ability creates or loses no hand or deck card and never adds a card to the location. |
| Effects.ThreeExposed | effect_system.py:115-119 | In a row of three cards, none equal to the trigger, every index is available. |
| Effects.DestroyScenario | effect_system.py:101-128 | The destroy card targets the opponent, whose row is Iron Man, Captain America and Wasp. The default count is 1, so the index-1 sample is a valid plan, and it leaves Iron Man and Wasp in order. |
| Matchmaking.Initial | matchmaking.py:15-19 | A new system satisfies the invariant and has no dangling mapping. |
| Matchmaking.NatToStringInjective | matchmaking.py:65-66 | Distinct counter values have distinct decimal numerals. |
| Matchmaking.GameNameInjective | matchmaking.py:65-66 | Distinct counter values give distinct `game_<n>` ids. |
| Matchmaking.NextIdFresh | matchmaking.py:63-66 | The id built from the incremented counter is used by no active game and no player mapping. |
| Matchmaking.CreateGame | matchmaking.py:63-84 | The counter goes up by one, and the new id is recorded with both players and their hand data. Both players map to the new id. No other game or mapping changes, and the queue is untouched. |
| Matchmaking.CreateKeepsIssued | matchmaking.py:63-84 | After a creation, every id in use is still one the counter issued. |
| Matchmaking.CreateKeepsMapped | matchmaking.py:63-84 | Pairing two distinct unmapped players under a fresh id keeps each game's two players mapped to it, and maps no one else to it. |
| Matchmaking.TryMatch | matchmaking.py:52-84 | With two or more waiting, the two earliest entries leave the queue and become player 1 and player 2 of a new game, and the rest keep their order. The new game is recorded under the next `game_<n>` id with both hands. Both players map to that id, and every other game and mapping stays as it was. With fewer than two, nothing changes. |
| Matchmaking.AddPlayerToQueue | matchmaking.py:22-84 | A queued player gets "Already in queue". Otherwise a mapped player gets "Already in a game". Either refusal leaves the state unchanged. Success happens exactly when neither applies. A first arrival waits. A second arrival is paired at once with the waiting player as player 1, so at most one player ever waits. The new game is recorded with both hands, both players map to its id, and every other game and mapping is unchanged. Were two or more already waiting, the newcomer would join the end of the queue and the two earliest entries would be paired the same way. |
| Matchmaking.AddKeepsValid | matchmaking.py:22-61 | `add_player_to_queue` keeps the invariant: at most one waiting player, who is in no game. Every id in use was issued. Each game's two players are mapped to it and no one else is. |
| Matchmaking.PairingKeepsValid | matchmaking.py:52-84 | Pairing the waiting player with an unmapped newcomer keeps the invariant. |
| Matchmaking.AddKeepsClean | matchmaking.py:22-84 | `add_player_to_queue` never creates a mapping to a game that is not active. |
| Matchmaking.WithoutPlayer | matchmaking.py:46-50 | The list comprehension of `remove_player_from_queue`. It only computes; Matchmaking.WithoutPlayerKeepsOrder, Matchmaking.WithoutPlayerRemoves, Matchmaking.WithoutPlayerShorter and Matchmaking.WithoutPlayerIdempotent state what it keeps. |
| Matchmaking.WithoutPlayerKeepsOrder | matchmaking.py:49 | Filtering keeps exactly the entries at the indices where the player is not, in their original order. |
| Matchmaking.WithoutPlayerRemoves | matchmaking.py:49 | Filtering the queue removes every entry of the player and keeps the count of every other entry. |
| Matchmaking.WithoutPlayerShorter | matchmaking.py:49 | Filtering never lengthens the queue, and shortens it when the player was waiting. |
| Matchmaking.WithoutPlayerIdempotent | matchmaking.py:49 | Filtering twice is filtering once. |
| Matchmaking.RemovePlayerFromQueue | matchmaking.py:46-50 | The player is no longer queued. The new queue is the old one without exactly the player's entries, the others in their original order. The games, mappings and counter are unchanged. |
| Matchmaking.RemoveFromQueueKeepsValid | matchmaking.py:46-50 | Leaving the queue keeps the invariant and leaves no dangling mapping. |
| Matchmaking.GetPlayerGame | matchmaking.py:111-116 | A record is returned exactly when the player is mapped to a non-empty id of an active game, and it is that game's record. |
| Matchmaking.GetQueueStatus | matchmaking.py:130-140 | "Not queued" is returned exactly when the player has no entry. Otherwise the result is the 1-based position of the player's first entry and the queue size. |
| Matchmaking.RemovePlayerFromGameAsWritten | matchmaking.py:118-128 | As written, the game and the leaving player's mapping go, and every other mapping stays, including the partner's. Every other game, the queue and the counter are unchanged. A player with no active game changes nothing. |
| Matchmaking.RemovePlayerFromGame | matchmaking.py:118-128 | With the correction, the game goes and so do the mappings of both of its players. Nothing else changes. |
| Matchmaking.RemovalEndsGameForBoth | matchmaking.py:111-128 | After either version, `get_player_game` finds no game for the leaving player or for the partner. |
| Matchmaking.RemoveAsWrittenKeepsValid | matchmaking.py:118-128 | The removal as written still keeps the invariant. |
| Matchmaking.RemoveFromGameKeepsValid | matchmaking.py:118-128 | The corrected removal keeps the invariant. |
| Matchmaking.RemoveFromGameKeepsClean | matchmaking.py:118-128 | The corrected removal leaves no player mapped to a game that is not active. |
| Matchmaking.PartnerLeftBehind | matchmaking.py:118-128 | "a" and "b" are paired and then "a" leaves. As written, "b" stays mapped to a deleted game, and its later `add_player_to_queue` is refused with "Already in a game". |
| Matchmaking.PartnerFreed | matchmaking.py:118-128 | The same steps with the correction leave no dangling mapping, and "b" can queue again. |
| Xp.RequirementsIncrease | xp_system.py:5-15 | The requirement table covers levels 1 to 10, starts at 0 and rises strictly with the level. |
| Xp.Scan | xp_system.py:55-61 | From a given level on, the loop settles on a level whose requirement is met and which is at least every later level whose requirement is met. |
| Xp.LevelFromXp | xp_system.py:53-61 | The level is in 1..10. It is the largest level whose requirement the points meet, or 1 for negative points, which meet none. |
| Xp.LevelMonotone | xp_system.py:53-61 | More points never give a lower level. |
| Xp.LevelExamples | xp_system.py:53-61 | 100 points are level 2, 1200 are level 6, 0 and 99 are level 1, and 2700 is level 10. |
| Xp.XpForNextLevel | xp_system.py:63-72 | Below the top level, the result is the next level's requirement minus the points, which is positive. At level 10 it is 0. |
| Xp.NextLevelExact | xp_system.py:63-72 | Gaining exactly the reported points reaches the next level, and one point fewer does not. |
| Xp.RewardsForLevel | xp_system.py:90-93 | The result is the level's reward list, or none for a level without an entry. |
| Xp.RewardsTable | xp_system.py:23-33 | The reward table covers exactly the levels 1 to 10. Level 1 gives nothing, each later level gives one card, and no card is given twice. |
| Xp.RewardCards | xp_system.py:23-33 | Every level reward is a catalog card except that of level 9, whose id 11 is not in the catalog. |
| Xp.XpSourceAmount | xp_system.py:112-115 | The result is the listed amount for a known event and 0 for an unknown one, and it is never negative. |
| Xp.Unclaimed | xp_system.py:102-108 | Within one level, the result is every listed card not yet unlocked, tagged with that level, and nothing else. |
| Xp.UnclaimedNoDuplicates | xp_system.py:102-108 | A reward list naming no card twice yields no reward twice. |
| Xp.RewardListsNoDuplicates | xp_system.py:23-33 | No level's reward list names a card twice. |
| Xp.JoinLevels | xp_system.py:101-108 | One level's rewards followed by the later levels' rewards keep soundness, completeness and level order. |
| Xp.PendingFrom | xp_system.py:101-108 | The loop over a range of levels returns exactly the rewards of those levels whose card is not unlocked, lowest level first. |
| Xp.JoinNoDuplicates | xp_system.py:101-108 | One level's rewards followed by higher levels' rewards repeat nothing when neither part does. |
| Xp.PendingFromNoDuplicates | xp_system.py:101-108 | The loop over a range of levels offers no reward twice. |
| Xp.PendingRewards | xp_system.py:95-110 | The pending rewards are exactly the rewards of levels 1 to the current level whose card is not unlocked, in ascending level order, each once. |
| Xp.PendingAt100 | xp_system.py:95-110 | A new player with 100 points has only card 1 pending, from level 2. |
| Xp.PendingAt1200 | xp_system.py:95-110 | With 1200 points and nothing unlocked, the rewards of levels 2 to 6 are pending in level order. |
| Xp.PendingAt1200Claimed | xp_system.py:95-110 | With 1200 points and cards 1, 4 and 2 unlocked, only the rewards of levels 5 and 6 remain. |

## Left out

- The browser UI (the static JavaScript files) and the Flask routes of `main.py` with their process-wide current game and random AI move. They are presentation and glue.
- Socket notifications, the `threading.Lock` and the `time.time()` timestamps of `matchmaking.py`. The model is sequential, so the lock has nothing to protect.
- Matchmaking.CreateGame: as written, `_create_game` raises a `TypeError` at matchmaking.py:69, because `Game.__init__` takes no arguments (game.py:110). By then both entries have been popped from the queue (matchmaking.py:56-57) and the counter incremented (matchmaking.py:65), and `active_games` and `player_to_game` are never written (matchmaking.py:82-84). The model assumes the call succeeds and records the game. Matchmaking.TryMatch, Matchmaking.AddPlayerToQueue and every paired state, including the one in the Findings row, rest on that assumption. The engine instance and the `'game'`, `'created_at'` and `'status'` fields of a game record are not kept.
- `get_game_state`: a read-only projection of the state and of the power functions that are modelled.
- `get_progress_to_next_level`, because it computes with floating point.
- `EFFECT_REGISTRY` in `effect_system.py`: nothing dispatches through it.
- The `description` fields of cards, effects and locations, except for the location catalog, which keeps them as data.
- `example_additions.py` and the test scripts. The concrete levels they mention appear as lemmas.
- Randomness. The shuffles, the location sample and the destroy sample are arguments with preconditions that describe every outcome the source allows.
- Game.PlayCard: the precondition `0 <= cardIndex && 0 <= locationIndex < |locations|` (for a game not over) excludes inputs Python accepts or fails on. A negative `card_index` passes the `card_index >= len(hand)` check and counts from the end of the hand (game.py:167-170). A `location_index` from -3 to -1 selects a location counting from the end (game.py:165). Nothing validates either index before the call (main.py:53-56). A `location_index` of 3 or more, or below -3, raises an `IndexError` at game.py:165, before any check.
- Missing dictionary keys (`KeyError`) cannot happen with the typed records: every effect carries its value and every location carries its value.
- `Game` uses the text-only location table of `game.py`. Its power functions ignore location effects, as the source does.
- An empty effect dictionary (falsy in Python) has no counterpart in the closed `Effect` variant.

## Findings

| source | as written | input that shows it | evidently intended | confidence | as-written member | corrected member |
|---|---|---|---|---|---|---|
| matchmaking.py:118-128 | `remove_player_from_game` deletes the game from `active_games` and only then looks the game up to find the partner. The lookup finds nothing, so the partner's `player_to_game` entry stays and points to a deleted game. | Assuming game creation succeeds (see Matchmaking.CreateGame under Left out), "a" and "b" queue and are paired into `game_1`, then `remove_player_from_game("a")`. After that, "b" is still mapped to `game_1`, and `add_player_to_queue("b", ...)` returns "Already in a game" for good. | Remove the mappings of both players of the game, as the comment "Also remove the other player" says. | high, not executed | Matchmaking.RemovePlayerFromGameAsWritten (exhibited by Matchmaking.PartnerLeftBehind) | Matchmaking.RemovePlayerFromGame (Matchmaking.PartnerFreed, Matchmaking.RemoveFromGameKeepsClean) |

=== FILE: board.dfy ===
/** The two sides of a match and the per-location card rows they fill. */
module Board {
  import opened Options
  import opened Cards
  import opened Locations

  /** The `player` argument of the source: "player" or (any other value) the opponent. */
  datatype Side = Player | Opponent {
    function Other(): Side {
      if Player? then Opponent else Player
    }
  }

  /** A location in play: the dictionary holding `name`, `effect`, optionally
      `effect_type`/`effect_value`, and the two card rows `player_cards` and
      `opponent_cards`. `effectType` is None for a location without an
      `effect_type` key, as every location of `game.py` is. */
  datatype Lane = Lane(
    name: string,
    effect: string,
    effectType: Option<LocationEffect>,
    effectValue: int,
    playerCards: seq<Card>,
    opponentCards: seq<Card>)

  /** A location from the `locations_data.py` catalog, with both rows empty. */
  function LaneOf(d: LocationDef): Lane {
    Lane(d.name, d.effect, Some(d.effectType), d.effectValue, [], [])
  }

  /** The row of `side` at `lane`. */
  function Row(lane: Lane, side: Side): seq<Card> {
    if side == Player then lane.playerCards else lane.opponentCards
  }

  /** `lane` with the row of `side` replaced by `cards`. */
  function WithRow(lane: Lane, side: Side, cards: seq<Card>): (r: Lane)
    ensures Row(r, side) == cards
    ensures Row(r, side.Other()) == Row(lane, side.Other())
    ensures r.name == lane.name && r.effect == lane.effect
    ensures r.effectType == lane.effectType && r.effectValue == lane.effectValue
  {
    if side == Player then lane.(playerCards := cards) else lane.(opponentCards := cards)
  }

  /** `lane` seen from the other side: the two rows exchanged. */
  function Swapped(lane: Lane): (r: Lane)
    ensures Row(r, Player) == Row(lane, Opponent) && Row(r, Opponent) == Row(lane, Player)
  {
    lane.(playerCards := lane.opponentCards, opponentCards := lane.playerCards)
  }
}

=== FILE: cards.dfy ===
/** Card definitions and the card catalog of `cards_data.py`.

    A card in the source is a dictionary whose `ability_effect` is either None or a
    dictionary keyed by an effect-type string. Here the effect is a closed variant
    with one constructor per effect type the engine reacts to, plus `OtherEffect`
    for any type string no handler knows. */
module Cards {
  import opened Options

  /** The `ability_type` string: "ongoing", "on_reveal" or "none". */
  datatype AbilityType = Ongoing | OnReveal | NoAbility

  /** The `target` string of an effect: "other_cards", "own" or "opponent". */
  datatype Target = OtherCards | OwnSide | OpponentSide

  /** The `ability_effect` dictionary, by its `type` string. A destroy effect reads its
      "value" and "target" keys with defaults, so both are optional there. */
  datatype Effect =
    | DrawCards(value: int)
    | DestroyCard(count: Option<int>, destroyTarget: Option<Target>)
    | PowerBoost(value: int, boostTarget: Target)
    | ReduceOpponentPower(value: int)
    | ReduceAllPower(value: int)
    | OtherEffect(kind: string)

  datatype Card = Card(
    id: int,
    name: string,
    power: int,
    cost: int,
    ability: string,
    abilityType: AbilityType,
    effect: Option<Effect>)

  /** An ongoing power boost aimed at the other cards of its side at its location. */
  predicate BoostsOthers(c: Card) {
    && c.abilityType == Ongoing
    && c.effect.Some?
    && c.effect.value.PowerBoost?
    && c.effect.value.boostTarget == OtherCards
  }

  /** An ongoing reduction of the opposing side's cards at its location. */
  predicate ReducesOpponent(c: Card) {
    c.abilityType == Ongoing && c.effect.Some? && c.effect.value.ReduceOpponentPower?
  }

  /** An ongoing reduction of every card at its location, on both sides. */
  predicate ReducesAll(c: Card) {
    c.abilityType == Ongoing && c.effect.Some? && c.effect.value.ReduceAllPower?
  }

  /** What `c` adds to each other own-side card at its location. */
  function BoostValue(c: Card): int {
    if BoostsOthers(c) then c.effect.value.value else 0
  }

  /** What `c` takes from each opposing card at its location. */
  function OpponentReduction(c: Card): int {
    if ReducesOpponent(c) then c.effect.value.value else 0
  }

  /** What `c` takes from every card at its location. */
  function AllReduction(c: Card): int {
    if ReducesAll(c) then c.effect.value.value else 0
  }

  /** The catalog of `cards_data.py`; list order is the default deck order. */
  const Characters: seq<Card> := [
    Card(1, "Iron Man", 5, 5, "Ongoing: Your other cards here have +2 Power.",
         Ongoing, Some(PowerBoost(2, OtherCards))),
    Card(2, "Captain America", 3, 3, "Ongoing: Your other cards here have +1 Power.",
         Ongoing, Some(PowerBoost(1, OtherCards))),
    Card(3, "Hulk", 12, 6, "No ability.", NoAbility, None),
    Card(4, "Black Widow", 1, 1, "On Reveal: Draw 1 card.", OnReveal, Some(DrawCards(1))),
    Card(5, "Thor", 4, 4, "On Reveal: Draw 2 cards.", OnReveal, Some(DrawCards(2))),
    Card(6, "Spider-Man", 3, 3, "Ongoing: Opponent's cards here have -1 Power.",
         Ongoing, Some(ReduceOpponentPower(1))),
    Card(7, "Doctor Strange", 3, 3, "Ongoing: Opponent's cards here have -2 Power.",
         Ongoing, Some(ReduceOpponentPower(2))),
    Card(8, "Scarlet Witch", 2, 2, "On Reveal: Draw 1 card.", OnReveal, Some(DrawCards(1))),
    Card(9, "Ant-Man", 1, 1, "Ongoing: Your other cards here have +1 Power.",
         Ongoing, Some(PowerBoost(1, OtherCards))),
    Card(10, "Wasp", 1, 0, "No ability.", NoAbility, None)
  ]

  /** The catalog lists the ids 1 to 10 in order, so ids are pairwise distinct. */
  lemma CatalogIds()
    ensures |Characters| == 10
    ensures forall i :: 0 <= i < |Characters| ==> Characters[i].id == i + 1
    ensures forall i, j :: 0 <= i < j < |Characters| ==> Characters[i].id != Characters[j].id
  {
  }

  /** The shape every catalog entry has: ability type "none" exactly when there is no
      effect, power boosts aim at the other cards, on-reveal cards draw at least one
      card, ongoing cards boost their side or reduce the opponent, power is not
      negative and cost lies between 0 and 6. */
  predicate WellShaped(c: Card) {
    && (c.abilityType == NoAbility <==> c.effect.None?)
    && (c.effect.Some? && c.effect.value.PowerBoost? ==> c.effect.value.boostTarget == OtherCards)
    && (c.abilityType == OnReveal ==>
          c.effect.Some? && c.effect.value.DrawCards? && c.effect.value.value >= 1)
    && (c.abilityType == Ongoing ==>
          c.effect.Some? && (c.effect.value.PowerBoost? || c.effect.value.ReduceOpponentPower?))
    && c.power >= 0
    && 0 <= c.cost <= 6
  }

  lemma CatalogWellShaped()
    ensures forall i :: 0 <= i < |Characters| ==> WellShaped(Characters[i])
  {
    forall i | 0 <= i < |Characters|
      ensures WellShaped(Characters[i])
    {
      if i < 5 {
        assert i == 0 || i == 1 || i == 2 || i == 3 || i == 4;
      } else {
        assert i == 5 || i == 6 || i == 7 || i == 8 || i == 9;
      }
    }
  }
}

=== FILE: effects.dfy ===
/** The effect resolver of `effect_system.py` (`EffectHandler`).

    `game.py` never calls this resolver, so it works on its own abstract state: the
    two sides' hands and decks (which `draw_cards` changes), the queue of delayed
    location draws, and the one location an effect is resolved at. Locations here
    carry an effect type, as the `locations_data.py` catalog entries do.

    The random sample of `_destroy_card` is not modelled as a generator: the chosen
    indices are an argument, constrained to be a sample the source could draw. */
module Effects {
  import opened Options
  import opened Seqs
  import opened Cards
  import opened Locations
  import opened Board
  import opened Game
  import opened GameFacts

  /** An entry of `pending_location_draw_effects`: who draws, and how many. */
  datatype LocationDraw = LocationDraw(side: Side, count: int)

  /** What the resolver reads and changes of a game instance. */
  datatype Table = Table(player: SideState, opponent: SideState, pendingLocationDraws: seq<LocationDraw>)

  /** The result of resolving an ability: the table, and the location it was resolved at. */
  datatype Resolved = Resolved(table: Table, lane: Lane)

  function SideIn(t: Table, side: Side): SideState {
    if side == Player then t.player else t.opponent
  }

  /** `game_instance.draw_cards(count, side)`: only that side's hand and deck change. */
  function DrawSide(t: Table, count: int, side: Side): (r: Table)
    ensures SideIn(r, side) == Draw(SideIn(t, side), count)
    ensures SideIn(r, side.Other()) == SideIn(t, side.Other())
    ensures r.pendingLocationDraws == t.pendingLocationDraws
  {
    var s := Draw(SideIn(t, side), count);
    if side == Player then t.(player := s) else t.(opponent := s)
  }

  // ---------------------------------------------------------------------------
  // Location effects

  /** `calculate_card_cost_modifier`: a cost-reduction location lowers the cost by its
      value; no other location changes it. */
  function CostModifier(card: Card, lane: Lane): (r: int)
    ensures lane.effectType == Some(CostReduction) ==> r == -lane.effectValue
    ensures lane.effectType != Some(CostReduction) ==> r == 0
  {
    if lane.effectType == Some(CostReduction) then -lane.effectValue else 0
  }

  /** Of the catalog locations only Asgard changes a cost, and it lowers it by one. */
  lemma CatalogCostModifiers(card: Card)
    ensures forall i :: 0 <= i < |Locations.Locations| ==>
              CostModifier(card, LaneOf(Locations.Locations[i])) == (if i == 0 then -1 else 0)
    ensures CostModifier(card, LaneOf(Locations.Locations[0])) + card.cost == card.cost - 1
  {
    CatalogEffects();
  }

  /** `apply_location_effect`: a draw location queues a delayed draw of its value for
      the side that played there; any other location leaves the table as it is. */
  function ApplyLocationEffect(lane: Lane, side: Side, t: Table): (r: Table)
    ensures r.player == t.player && r.opponent == t.opponent
    ensures lane.effectType == Some(DrawCard) <==>
              |r.pendingLocationDraws| == |t.pendingLocationDraws| + 1
    ensures lane.effectType == Some(DrawCard) ==>
              && r.pendingLocationDraws[..|t.pendingLocationDraws|] == t.pendingLocationDraws
              && r.pendingLocationDraws[|t.pendingLocationDraws|] == LocationDraw(side, lane.effectValue)
    ensures lane.effectType != Some(DrawCard) ==> r == t
  {
    if lane.effectType == Some(DrawCard) then
      t.(pendingLocationDraws := t.pendingLocationDraws + [LocationDraw(side, lane.effectValue)])
    else
      t
  }

  /** The draws of `queue`, one after the other in queue order. */
  function DrawQueued(t: Table, queue: seq<LocationDraw>): Table
    decreases |queue|
  {
    if queue == [] then t else DrawQueued(DrawSide(t, queue[0].count, queue[0].side), queue[1..])
  }

  /** The number of cards the entries of `side` in `queue` ask for in total (an entry
      with a count of zero or less asks for none). */
  function Requested(queue: seq<LocationDraw>, side: Side): nat {
    if queue == [] then 0
    else (if queue[0].side == side && queue[0].count > 0 then queue[0].count else 0)
         + Requested(queue[1..], side)
  }

  /** A draw of zero or fewer cards changes nothing. */
  lemma DrawNone(s: SideState, count: int)
    requires count <= 0
    ensures Draw(s, count) == s
  {
  }

  /** Drawing the queue entry by entry is drawing, for each side, the total its entries
      ask for in one go. */
  lemma {:induction false} DrawQueuedTotals(t: Table, queue: seq<LocationDraw>)
    ensures DrawQueued(t, queue).player == Draw(t.player, Requested(queue, Player))
    ensures DrawQueued(t, queue).opponent == Draw(t.opponent, Requested(queue, Opponent))
    ensures DrawQueued(t, queue).pendingLocationDraws == t.pendingLocationDraws
    decreases |queue|
  {
    if queue == [] {
      DrawNone(t.player, 0);
      DrawNone(t.opponent, 0);
    } else {
      var e := queue[0];
      var t' := DrawSide(t, e.count, e.side);
      DrawQueuedTotals(t', queue[1..]);
      var n := if e.count > 0 then e.count else 0;
      if e.count <= 0 {
        DrawNone(SideIn(t, e.side), e.count);
      }
      assert SideIn(t', e.side) == Draw(SideIn(t, e.side), n);
      DrawCompose(SideIn(t, e.side), n, Requested(queue[1..], e.side));
    }
  }

  /** `process_pending_location_draw_effects`: each side draws what its queued entries
      ask for (capped by its deck), and the queue is left empty. */
  function ProcessPendingLocationDraws(t: Table): (r: Table)
    ensures r.player == Draw(t.player, Requested(t.pendingLocationDraws, Player))
    ensures r.opponent == Draw(t.opponent, Requested(t.pendingLocationDraws, Opponent))
    ensures r.pendingLocationDraws == []
  {
    DrawQueuedTotals(t, t.pendingLocationDraws);
    DrawQueued(t, t.pendingLocationDraws).(pendingLocationDraws := [])
  }

  /** Processing the queue moves cards from deck to hand and creates or loses none. */
  lemma ProcessPendingKeepsCards(t: Table, side: Side)
    ensures var s := SideIn(t, side);
            var s' := SideIn(ProcessPendingLocationDraws(t), side);
            && |s'.hand| == |s.hand| + DrawnCount(Requested(t.pendingLocationDraws, side), |s.deck|)
            && multiset(s'.hand) + multiset(s'.deck) == multiset(s.hand) + multiset(s.deck)
  {
    DrawMoves(SideIn(t, side), Requested(t.pendingLocationDraws, side));
  }

  // ---------------------------------------------------------------------------
  // Power modifier

  /** What the location itself adds to each card of a side: its value at a power-boost
      location, and at a single-card-bonus location when the side has exactly one card
      there. */
  function LocationBonus(lane: Lane, own: seq<Card>): int {
    match lane.effectType
    case Some(AddPower) => lane.effectValue
    case Some(SingleCardBonus) => if |own| == 1 then lane.effectValue else 0
    case _ => 0
  }

  /** The modifier `calculate_card_power_modifier` is meant to compute for `card`, with
      `own` its side's cards and `opposing` the other side's cards at `lane`: the
      location bonus, plus the boosts of the own cards other than `card`, minus the
      opposing reductions, minus every reduce-all value on either side (the card's
      own included). */
  function PowerModifier(card: Card, lane: Lane, own: seq<Card>, opposing: seq<Card>): (r: int)
    // Alone at a location without effect, facing nobody, a card is changed only by its
    // own reduce-all value.
    ensures own == [card] && opposing == [] && lane.effectType.None? ==> r == -AllReduction(card)
  {
    SumSingle(card, BoostTo(card));
    SumSingle(card, AllReduction);
    assert [card] + [] == [card];
    LocationBonus(lane, own)
    + Sum(own, BoostTo(card))
    - Sum(opposing, OpponentReduction)
    - Sum(own + opposing, AllReduction)
  }

  /** The reduce-all loop of `calculate_card_power_modifier`, over both rows. */
  method SumAllReductions(all: seq<Card>) returns (taken: int)
    ensures taken == Sum(all, AllReduction)
  {
    taken := 0;
    var k := 0;
    while k < |all|
      invariant 0 <= k <= |all|
      invariant taken == Sum(all[..k], AllReduction)
    {
      var c := all[k];
      if ReducesAll(c) {
        taken := taken + c.effect.value.value;
      }
      assert all[..k + 1][..k] == all[..k];
      k := k + 1;
    }
    assert all[..k] == all;
  }

  /** `calculate_card_power_modifier`, loop for loop. */
  method ComputePowerModifier(card: Card, lane: Lane, own: seq<Card>, opposing: seq<Card>)
    returns (total: int)
    ensures total == PowerModifier(card, lane, own, opposing)
  {
    total := 0;
    if lane.effectType == Some(AddPower) {
      total := total + lane.effectValue;
    } else if lane.effectType == Some(SingleCardBonus) && |own| == 1 {
      total := total + lane.effectValue;
    }
    var boosts := SumBoosts(own, card);
    var reductions := SumReductions(opposing);
    var everyone := SumAllReductions(own + opposing);
    total := total + boosts - reductions - everyone;
  }

  /** The modifier depends only on which cards are on each side, not on their order. */
  lemma PowerModifierOrderIndependent(card: Card, lane: Lane, own: seq<Card>, opposing: seq<Card>,
                                      own': seq<Card>, opposing': seq<Card>)
    requires multiset(own) == multiset(own')
    requires multiset(opposing) == multiset(opposing')
    ensures PowerModifier(card, lane, own, opposing) == PowerModifier(card, lane, own', opposing')
  {
    assert |own| == |multiset(own)| == |own'|;
    SumPermutation(own, own', BoostTo(card));
    SumPermutation(opposing, opposing', OpponentReduction);
    SumPermutation(own + opposing, own' + opposing', AllReduction);
  }

  /** Without a location effect and without reduce-all cards, base power plus the
      modifier is the power `game.py` computes for the card. */
  lemma PowerModifierAgreesWithGame(card: Card, lane: Lane, side: Side)
    requires lane.effectType.None?
    requires forall i :: 0 <= i < |lane.playerCards| ==> !ReducesAll(lane.playerCards[i])
    requires forall i :: 0 <= i < |lane.opponentCards| ==> !ReducesAll(lane.opponentCards[i])
    ensures card.power + PowerModifier(card, lane, Row(lane, side), Row(lane, side.Other()))
            == CardPower(card, lane, side)
  {
    var all := Row(lane, side) + Row(lane, side.Other());
    assert forall i :: 0 <= i < |all| ==> !ReducesAll(all[i]) by {
      forall i | 0 <= i < |all|
        ensures !ReducesAll(all[i])
      {
        if i < |Row(lane, side)| {
          assert all[i] == Row(lane, side)[i];
        } else {
          assert all[i] == Row(lane, side.Other())[i - |Row(lane, side)|];
        }
      }
    }
    NoReduceAllSum(all);
  }

  /** Cards without a reduce-all effect take nothing from anyone. */
  lemma {:induction false} NoReduceAllSum(all: seq<Card>)
    requires forall i :: 0 <= i < |all| ==> !ReducesAll(all[i])
    ensures Sum(all, AllReduction) == 0
    decreases |all|
  {
    if all != [] {
      NoReduceAllSum(all[..|all| - 1]);
    }
  }

  /** Sanctum Sanctorum adds 5 to a card that is alone on its side, and nothing once a
      second card joins it. */
  lemma SingleCardBonusScenario()
    ensures var sanctum := LaneOf(Locations.Locations[3]);
            var hulk := Characters[2];
            var wasp := Characters[9];
            && PowerModifier(hulk, sanctum, [hulk], []) == 5
            && PowerModifier(hulk, sanctum, [hulk, wasp], []) == 0
  {
    var hulk := Characters[2];
    var wasp := Characters[9];
    var sanctum := LaneOf(Locations.Locations[3]);
    assert [hulk][..0] == [];
    assert [hulk, wasp][..1] == [hulk];
    assert [hulk] + [] == [hulk];
    assert [hulk, wasp] + [] == [hulk, wasp];
    assert Sum([hulk], BoostTo(hulk)) == 0;
    assert Sum([hulk], AllReduction) == 0;
    assert Sum([hulk, wasp], BoostTo(hulk)) == 0;
    assert Sum([hulk, wasp], AllReduction) == 0;
    assert LocationBonus(sanctum, [hulk]) == 5;
    assert LocationBonus(sanctum, [hulk, wasp]) == 0;
  }

  // ---------------------------------------------------------------------------
  // Destroy

  /** The side whose row `_destroy_card` works on: its own for target "own" (also the
      default), the other side for any other target. */
  function DestroySide(target: Option<Target>, side: Side): Side {
    if target.GetOr(OwnSide) == OwnSide then side else side.Other()
  }

  /** A card the destroy may hit: any card when there is no triggering card, otherwise
      every card not equal to it. */
  predicate Exposed(c: Card, trigger: Option<Card>) {
    trigger.None? || c != trigger.value
  }

  /** The `available_cards` list: the indices of the exposed cards of `row`, ascending. */
  function AvailableIndices(row: seq<Card>, trigger: Option<Card>): (r: seq<int>)
    ensures forall k :: 0 <= k < |r| ==> 0 <= r[k] < |row| && Exposed(row[r[k]], trigger)
    ensures forall i :: 0 <= i < |row| && Exposed(row[i], trigger) ==> i in r
    ensures forall k, l :: 0 <= k < l < |r| ==> r[k] < r[l]
    decreases |row|
  {
    if row == [] then []
    else
      var init := AvailableIndices(row[..|row| - 1], trigger);
      if Exposed(row[|row| - 1], trigger) then init + [|row| - 1] else init
  }

  /** How many cards the destroy removes: `min(count, len(available))` with the count
      defaulting to 1, and none when that is zero or less. */
  function DestroyedCount(count: Option<int>, available: nat): (n: nat)
    ensures n <= available
    ensures count.GetOr(1) > 0 ==> n == Min(count.GetOr(1), available)
    ensures count.GetOr(1) <= 0 ==> n == 0
  {
    var k := Min(count.GetOr(1), available);
    if k > 0 then k else 0
  }

  /** `order` is a sample of `k` of the `available` indices, sorted largest first, as
      the source pops them. */
  predicate Sample(order: seq<int>, available: seq<int>, k: nat) {
    && |order| == k
    && Descending(order)
    && forall j :: 0 <= j < |order| ==> order[j] in available
  }

  /** The indices the destroy of `lane` may pop, for the effect's count and target. */
  predicate DestroyPlan(lane: Lane, side: Side, count: Option<int>, target: Option<Target>,
                        trigger: Option<Card>, order: seq<int>) {
    var avail := AvailableIndices(Row(lane, DestroySide(target, side)), trigger);
    Sample(order, avail, DestroyedCount(count, |avail|))
  }

  /** The last `k` of an increasing sequence, read backwards, are a sample of it. */
  lemma LargestFirst(avail: seq<int>, k: nat) returns (order: seq<int>)
    requires k <= |avail|
    requires forall i, j :: 0 <= i < j < |avail| ==> avail[i] < avail[j]
    ensures Sample(order, avail, k)
  {
    order := seq(k, j requires 0 <= j < k => avail[|avail| - 1 - j]);
    forall j | 0 <= j < |order|
      ensures order[j] in avail
    {
      assert order[j] == avail[|avail| - 1 - j];
    }
    forall i, j | 0 <= i < j < |order|
      ensures order[i] > order[j]
    {
      assert avail[|avail| - 1 - j] < avail[|avail| - 1 - i];
    }
  }

  /** Every destroy has a plan: the largest indices that may be taken, for instance. */
  lemma DestroyPlanExists(lane: Lane, side: Side, count: Option<int>, target: Option<Target>,
                          trigger: Option<Card>)
    ensures exists order :: DestroyPlan(lane, side, count, target, trigger, order)
  {
    var avail := AvailableIndices(Row(lane, DestroySide(target, side)), trigger);
    var order := LargestFirst(avail, DestroyedCount(count, |avail|));
    assert DestroyPlan(lane, side, count, target, trigger, order);
  }

  /** Popping only exposed indices keeps every card equal to the trigger. */
  lemma SparesTrigger(row: seq<Card>, order: seq<int>, trigger: Option<Card>)
    requires Descending(order)
    requires forall j :: 0 <= j < |order| ==> order[j] in AvailableIndices(row, trigger)
    ensures forall k :: 0 <= k < |order| ==> 0 <= order[k] < |row|
    ensures trigger.Some? ==> multiset(PopAll(row, order))[trigger.value] == multiset(row)[trigger.value]
  {
    if trigger.Some? {
      PopAllSpares(row, order, trigger.value);
    }
  }

  /** `_destroy_card`: the planned cards leave the targeted row, which keeps its other
      cards in order; no card equal to the triggering card is removed, and the other
      row and the location's own fields stay as they are. */
  function Destroy(lane: Lane, side: Side, count: Option<int>, target: Option<Target>,
                   trigger: Option<Card>, order: seq<int>): (r: Lane)
    requires DestroyPlan(lane, side, count, target, trigger, order)
    ensures var hit := DestroySide(target, side);
            var row := Row(lane, hit);
            var avail := AvailableIndices(row, trigger);
            && Row(r, hit) == Without(row, set x | x in order)
            && |Row(r, hit)| == |row| - DestroyedCount(count, |avail|)
            && multiset(Row(r, hit)) <= multiset(row)
            && (trigger.Some? ==> multiset(Row(r, hit))[trigger.value] == multiset(row)[trigger.value])
            && Row(r, hit.Other()) == Row(lane, hit.Other())
            && r.name == lane.name && r.effect == lane.effect && r.effectType == lane.effectType
            && r.effectValue == lane.effectValue
  {
    var hit := DestroySide(target, side);
    var row := Row(lane, hit);
    PopAllKeepsOrder(row, order);
    SparesTrigger(row, order, trigger);
    WithRow(lane, hit, PopAll(row, order))
  }

  // ---------------------------------------------------------------------------
  // Ability dispatch

  /** The destroy plan `ApplyCardAbility` needs: any order for a card without a destroy
      effect, otherwise a plan for its destroy with the card itself as the trigger. */
  predicate AbilityPlan(card: Card, lane: Lane, side: Side, order: seq<int>) {
    card.effect.Some? && card.effect.value.DestroyCard? ==>
      DestroyPlan(lane, side, card.effect.value.count, card.effect.value.destroyTarget,
                  Some(card), order)
  }

  /** `apply_card_ability`: a draw effect draws its value for `side`, a destroy effect
      destroys at the location, and every other effect (or none) changes nothing. */
  function ApplyCardAbility(card: Card, lane: Lane, side: Side, t: Table, order: seq<int>): (r: Resolved)
    requires AbilityPlan(card, lane, side, order)
    ensures card.effect.None? ==> r == Resolved(t, lane)
    ensures card.effect.Some? && card.effect.value.DrawCards? ==>
              r == Resolved(DrawSide(t, card.effect.value.value, side), lane)
    ensures card.effect.Some? && card.effect.value.DestroyCard? ==>
              && r.table == t
              && r.lane == Destroy(lane, side, card.effect.value.count,
                                   card.effect.value.destroyTarget, Some(card), order)
    ensures card.effect.Some? && !card.effect.value.DrawCards? && !card.effect.value.DestroyCard? ==>
              r == Resolved(t, lane)
  {
    match card.effect
    case None => Resolved(t, lane)
    case Some(e) =>
      match e
      case DrawCards(n) => Resolved(DrawSide(t, n, side), lane)
      case DestroyCard(count, target) => Resolved(t, Destroy(lane, side, count, target, Some(card), order))
      case _ => Resolved(t, lane)
  }

  /** Resolving an ability never creates or loses a hand or deck card, and never adds a
      card to the location. */
  lemma AbilityKeepsCards(card: Card, lane: Lane, side: Side, t: Table, order: seq<int>, who: Side)
    requires AbilityPlan(card, lane, side, order)
    ensures var r := ApplyCardAbility(card, lane, side, t, order);
            && multiset(SideIn(r.table, who).hand) + multiset(SideIn(r.table, who).deck)
               == multiset(SideIn(t, who).hand) + multiset(SideIn(t, who).deck)
            && multiset(Row(r.lane, who)) <= multiset(Row(lane, who))
  {
    var r := ApplyCardAbility(card, lane, side, t, order);
    if card.effect.None? {
      assert r == Resolved(t, lane);
    } else if card.effect.value.DrawCards? {
      assert r.lane == lane;
      DrawMoves(SideIn(t, who), card.effect.value.value);
      if who != side {
        assert SideIn(r.table, who) == SideIn(t, who);
      }
    } else if card.effect.value.DestroyCard? {
      assert r.table == t;
      var hit := DestroySide(card.effect.value.destroyTarget, side);
      if who != hit {
        assert who == hit.Other();
      }
    } else {
      assert r == Resolved(t, lane);
    }
  }

  /** In a row of three cards none of which is the trigger, every index is available. */
  lemma ThreeExposed(a: Card, b: Card, c: Card, trigger: Card)
    requires a != trigger && b != trigger && c != trigger
    ensures AvailableIndices([a, b, c], Some(trigger)) == [0, 1, 2]
  {
    var row := [a, b, c];
    assert row[..2] == [a, b] && row[..2][..1] == [a] && row[..2][..1][..0] == [];
    assert AvailableIndices(row[..2][..1][..0], Some(trigger)) == [];
    assert AvailableIndices(row[..2][..1], Some(trigger)) == [0];
    assert AvailableIndices(row[..2], Some(trigger)) == [0, 1];
  }

  /** A destroy of one opposing card with Iron Man, Captain America and Wasp against
      it, planned on Captain America, leaves Iron Man and Wasp in their order. */
  lemma DestroyScenario()
    ensures var ironMan := Characters[0];
            var cap := Characters[1];
            var wasp := Characters[9];
            var killer := Card(11, "Killer", 2, 2, "On Reveal: Destroy an enemy card.",
                               OnReveal, Some(DestroyCard(None, Some(OpponentSide))));
            var lane := Lane("Asgard", "", Some(CostReduction), 1, [killer], [ironMan, cap, wasp]);
            && AbilityPlan(killer, lane, Player, [1])
            && ApplyCardAbility(killer, lane, Player, Table(SideState([], [], 0, 0), SideState([], [], 0, 0), []), [1])
               .lane.opponentCards == [ironMan, wasp]
  {
    var ironMan := Characters[0];
    var cap := Characters[1];
    var wasp := Characters[9];
    var killer := Card(11, "Killer", 2, 2, "On Reveal: Destroy an enemy card.",
                       OnReveal, Some(DestroyCard(None, Some(OpponentSide))));
    var row := [ironMan, cap, wasp];
    var avail := AvailableIndices(row, Some(killer));
    ThreeExposed(ironMan, cap, wasp, killer);
    assert PopAll(row, [1]) == [ironMan, wasp];
  }
}

=== FILE: game.dfy ===
/** The match engine of `game.py`: one match between "player" and "opponent" over
    three locations, modelled as an immutable record and pure transition functions.

    Shuffling and the random choice of locations are not modelled as a generator:
    `NewGame` takes the decks (in any order) and the chosen location indices as arguments. */
module Game {
  import opened Options
  import opened Seqs
  import opened Cards
  import opened Board

  const MaxTurns := 5
  /** A side may hold at most this many cards at one location. */
  const RowCapacity := 4
  /** The per-turn energy grant stops growing at this turn. */
  const EnergyCap := 6
  const OpeningHand := 3

  /** The card table `game.py` keeps for itself, a duplicate of the catalog. */
  const GameCharacters: seq<Card> := [
    Card(1, "Iron Man", 5, 5, "Ongoing: Your other cards here have +2 Power.",
         Ongoing, Some(PowerBoost(2, OtherCards))),
    Card(2, "Captain America", 3, 3, "Ongoing: Your other cards here have +1 Power.",
         Ongoing, Some(PowerBoost(1, OtherCards))),
    Card(3, "Hulk", 12, 6, "No ability.", NoAbility, None),
    Card(4, "Black Widow", 1, 1, "On Reveal: Draw 1 card.", OnReveal, Some(DrawCards(1))),
    Card(5, "Thor", 4, 4, "On Reveal: Draw 2 cards.", OnReveal, Some(DrawCards(2))),
    Card(6, "Spider-Man", 3, 3, "Ongoing: Opponent's cards here have -1 Power.",
         Ongoing, Some(ReduceOpponentPower(1))),
    Card(7, "Doctor Strange", 3, 3, "Ongoing: Opponent's cards here have -2 Power.",
         Ongoing, Some(ReduceOpponentPower(2))),
    Card(8, "Scarlet Witch", 2, 2, "On Reveal: Draw 1 card.", OnReveal, Some(DrawCards(1))),
    Card(9, "Ant-Man", 1, 1, "Ongoing: Your other cards here have +1 Power.",
         Ongoing, Some(PowerBoost(1, OtherCards))),
    Card(10, "Wasp", 1, 0, "No ability.", NoAbility, None)
  ]

  /** A location of `game.py`'s own table: a name and a text, no effect type. */
  datatype Venue = Venue(name: string, effect: string)

  const GameLocations: seq<Venue> := [
    Venue("Asgard", "Cards here cost 1 less."),
    Venue("Wakanda", "Cards here can't be destroyed."),
    Venue("New York", "Cards here have +1 Power."),
    Venue("Sanctum Sanctorum", "Cards here can't be moved."),
    Venue("Stark Tower", "After turn 3, cards here have +2 Power.")
  ]

  datatype Winner = PlayerWon | OpponentWon | Tie

  /** One side's private zones and energy counters. */
  datatype SideState = SideState(hand: seq<Card>, deck: seq<Card>, energy: int, unusedEnergy: int)

  /** An entry of `pending_on_reveal_effects`. */
  datatype PendingReveal = PendingReveal(card: Card, locationIndex: int, side: Side)

  datatype State = State(
    turn: int,
    player: SideState,
    opponent: SideState,
    locations: seq<Lane>,
    gameOver: bool,
    winner: Option<Winner>,
    pendingOnReveal: seq<PendingReveal>)

  /** The result of `play_card`: the success flag, the message, and the state after the call. */
  datatype Reply = Reply(ok: bool, reason: string, state: State)

  const GameIsOver := "Game is over"
  const InvalidCardIndex := "Invalid card index"
  const NotEnoughEnergy := "Not enough energy"
  const LocationIsFull := "Location is full (maximum 4 cards)"
  const CardPlayed := "Card played successfully"

  function Min(a: int, b: int): int {
    if a <= b then a else b
  }

  function SideOf(g: State, side: Side): SideState {
    if side == Player then g.player else g.opponent
  }

  /** Everything but the two sides' zones and energies is the same in `a` and `b`. */
  predicate SameBoard(a: State, b: State) {
    && a.turn == b.turn
    && a.locations == b.locations
    && a.gameOver == b.gameOver
    && a.winner == b.winner
    && a.pendingOnReveal == b.pendingOnReveal
  }

  function WithSide(g: State, side: Side, s: SideState): (r: State)
    ensures SideOf(r, side) == s
    ensures SideOf(r, side.Other()) == SideOf(g, side.Other())
    ensures SameBoard(r, g)
  {
    if side == Player then g.(player := s) else g.(opponent := s)
  }

  /** The number of cards `draw_cards(count, ·)` moves out of a deck of `deckSize` cards. */
  function DrawnCount(count: int, deckSize: nat): nat {
    if count <= 0 then 0 else Min(count, deckSize)
  }

  /** The loop of `draw_cards` on one hand and deck: pop from the end of the deck and
      append to the hand, `min(count, len(deck))` times. */
  function DrawFrom<T>(hand: seq<T>, deck: seq<T>, count: int): (seq<T>, seq<T>)
    decreases if count <= 0 then 0 else count
  {
    if count <= 0 || |deck| == 0 then (hand, deck)
    else DrawFrom(hand + [deck[|deck| - 1]], deck[..|deck| - 1], count - 1)
  }

  /** The loop moves the last `n` deck cards, `n` being `count` capped by the deck
      size, onto the hand in pop order (last card first). */
  lemma {:induction false} DrawFromMoves<T>(hand: seq<T>, deck: seq<T>, count: int)
    ensures var n := DrawnCount(count, |deck|);
            var r := DrawFrom(hand, deck, count);
            && r.1 == deck[..|deck| - n]
            && r.0 == hand + Reverse(deck[|deck| - n..])
    decreases if count <= 0 then 0 else count
  {
    var n := DrawnCount(count, |deck|);
    if count <= 0 || |deck| == 0 {
      assert deck[|deck| - n..] == [];
      assert deck[..|deck| - n] == deck;
    } else {
      var top := deck[|deck| - 1];
      var deck' := deck[..|deck| - 1];
      assert DrawFrom(hand, deck, count) == DrawFrom(hand + [top], deck', count - 1);
      DrawFromMoves(hand + [top], deck', count - 1);
      assert DrawnCount(count - 1, |deck'|) == n - 1;
      var rest := deck'[|deck'| - (n - 1)..];
      assert deck[|deck| - n..] == rest + [top];
      ReverseSnoc(rest, top);
      assert deck'[..|deck'| - (n - 1)] == deck[..|deck| - n];
    }
  }

  /** `draw_cards` on one side's hand and deck. */
  function Draw(s: SideState, count: int): SideState {
    var (hand, deck) := DrawFrom(s.hand, s.deck, count);
    s.(hand := hand, deck := deck)
  }

  /** `draw_cards` on one side: the hand gains the last `n` deck cards in pop order,
      where `n` is `count` capped by the deck size (none for `count <= 0`); no card is
      created or lost, and the energy counters stay as they are. */
  lemma DrawMoves(s: SideState, count: int)
    ensures var n := DrawnCount(count, |s.deck|);
            var r := Draw(s, count);
            && r.deck == s.deck[..|s.deck| - n]
            && r.hand == s.hand + Reverse(s.deck[|s.deck| - n..])
            && |r.hand| == |s.hand| + n
            && r.energy == s.energy && r.unusedEnergy == s.unusedEnergy
            && multiset(r.hand) + multiset(r.deck) == multiset(s.hand) + multiset(s.deck)
  {
    var n := DrawnCount(count, |s.deck|);
    var kept := s.deck[..|s.deck| - n];
    var taken := s.deck[|s.deck| - n..];
    DrawFromMoves(s.hand, s.deck, count);
    ReverseElements(taken);
    var r := Draw(s, count);
    assert r.hand == s.hand + Reverse(taken) && r.deck == kept;
    assert s.deck == kept + taken;
    assert multiset(r.hand) == multiset(s.hand) + multiset(taken);
    assert multiset(s.deck) == multiset(kept) + multiset(taken);
  }

  /** `draw_cards(count, side)` on the match: only that side's hand and deck change. */
  function DrawFor(g: State, count: int, side: Side): (r: State)
    ensures SideOf(r, side) == Draw(SideOf(g, side), count)
    ensures SideOf(r, side.Other()) == SideOf(g, side.Other())
    ensures SameBoard(r, g)
  {
    WithSide(g, side, Draw(SideOf(g, side), count))
  }

  /** `play_card` queues an on-reveal card whose effect is present and is not a power
      reduction; such cards are resolved at the end of the turn. */
  predicate DeferredReveal(c: Card) {
    c.abilityType == OnReveal && c.effect.Some? && !c.effect.value.ReduceOpponentPower?
  }

  function PlayCard(g: State, cardIndex: int, locationIndex: int, side: Side): (r: Reply)
    requires !g.gameOver ==> 0 <= cardIndex && 0 <= locationIndex < |g.locations|
    // Failures, in the order they are checked; a failure changes nothing.
    ensures !r.ok ==> r.state == g
    ensures g.gameOver ==> !r.ok && r.reason == GameIsOver
    ensures !g.gameOver && cardIndex >= |SideOf(g, side).hand| ==>
              !r.ok && r.reason == InvalidCardIndex
    ensures !g.gameOver && cardIndex < |SideOf(g, side).hand| &&
            SideOf(g, side).hand[cardIndex].cost > SideOf(g, side).energy ==>
              !r.ok && r.reason == NotEnoughEnergy
    ensures !g.gameOver && cardIndex < |SideOf(g, side).hand| &&
            SideOf(g, side).hand[cardIndex].cost <= SideOf(g, side).energy &&
            |Row(g.locations[locationIndex], side)| >= RowCapacity ==>
              !r.ok && r.reason == LocationIsFull
    // A play that passes all four checks succeeds.
    ensures r.ok <==>
              && !g.gameOver
              && cardIndex < |SideOf(g, side).hand|
              && SideOf(g, side).hand[cardIndex].cost <= SideOf(g, side).energy
              && |Row(g.locations[locationIndex], side)| < RowCapacity
    // Success: pay the cost, move the card from the hand to the end of the row.
    ensures r.ok ==>
              var before := SideOf(g, side);
              var after := SideOf(r.state, side);
              var card := before.hand[cardIndex];
              && r.reason == CardPlayed
              && after.energy == before.energy - card.cost >= 0
              && after.hand == RemoveAt(before.hand, cardIndex)
              && after.deck == before.deck && after.unusedEnergy == before.unusedEnergy
              && SideOf(r.state, side.Other()) == SideOf(g, side.Other())
              && |r.state.locations| == |g.locations|
              && Row(r.state.locations[locationIndex], side) == Row(g.locations[locationIndex], side) + [card]
              && r.state.locations[locationIndex] ==
                 WithRow(g.locations[locationIndex], side, Row(g.locations[locationIndex], side) + [card])
              && |Row(r.state.locations[locationIndex], side)| <= RowCapacity
              && Row(r.state.locations[locationIndex], side.Other()) == Row(g.locations[locationIndex], side.Other())
              && (forall i :: 0 <= i < |g.locations| && i != locationIndex ==> r.state.locations[i] == g.locations[i])
              && r.state.turn == g.turn && !r.state.gameOver && r.state.winner == g.winner
              && r.state.pendingOnReveal ==
                 g.pendingOnReveal + (if DeferredReveal(card) then [PendingReveal(card, locationIndex, side)] else [])
  {
    if g.gameOver then
      Reply(false, GameIsOver, g)
    else
      var mine := SideOf(g, side);
      var lane := g.locations[locationIndex];
      if cardIndex >= |mine.hand| then
        Reply(false, InvalidCardIndex, g)
      else
        var card := mine.hand[cardIndex];
        if card.cost > mine.energy then
          Reply(false, NotEnoughEnergy, g)
        else if |Row(lane, side)| >= RowCapacity then
          Reply(false, LocationIsFull, g)
        else
          var lane' := WithRow(lane, side, Row(lane, side) + [card]);
          var mine' := mine.(energy := mine.energy - card.cost, hand := RemoveAt(mine.hand, cardIndex));
          var queued := if DeferredReveal(card) then [PendingReveal(card, locationIndex, side)] else [];
          var g' := WithSide(g, side, mine').(locations := g.locations[locationIndex := lane'],
                                              pendingOnReveal := g.pendingOnReveal + queued);
          Reply(true, CardPlayed, g')
  }

  /** How many cards resolving an on-reveal card draws: the value of a `draw_cards`
      effect, none for anything else. */
  function RevealDraw(c: Card): nat {
    if c.abilityType == OnReveal && c.effect.Some? && c.effect.value.DrawCards? && c.effect.value.value > 0
    then c.effect.value.value
    else 0
  }

  /** Drawing zero or fewer cards changes nothing. */
  lemma DrawNothing(g: State, count: int, side: Side)
    requires count <= 0
    ensures DrawFor(g, count, side) == g
  {
    assert Draw(SideOf(g, side), count) == SideOf(g, side);
  }

  /** `process_on_reveal_ability`: only a `draw_cards` effect does anything. */
  function ProcessOnReveal(g: State, card: Card, locationIndex: int, side: Side): (r: State)
    ensures r == DrawFor(g, RevealDraw(card), side)
  {
    DrawNothing(g, 0, side);
    if card.abilityType != OnReveal || card.effect.None? then
      g
    else
      match card.effect.value
      case DrawCards(n) =>
        if n <= 0 then DrawNothing(g, n, side); DrawFor(g, n, side) else DrawFor(g, n, side)
      case _ => g
  }

  /** Process the queued on-reveal entries in the order they were played. */
  function ResolveReveals(g: State, queue: seq<PendingReveal>): (r: State)
    ensures SameBoard(r, g)
    ensures r.player.energy == g.player.energy && r.player.unusedEnergy == g.player.unusedEnergy
    ensures r.opponent.energy == g.opponent.energy && r.opponent.unusedEnergy == g.opponent.unusedEnergy
    decreases |queue|
  {
    if queue == [] then
      g
    else
      var e := queue[0];
      ResolveReveals(ProcessOnReveal(g, e.card, e.locationIndex, e.side), queue[1..])
  }

  /** What one side adds to `card` when both sit in the same row: its boost, unless it
      is (equal to) `card` itself. */
  function BoostTo(card: Card): Card -> int {
    o => if o != card then BoostValue(o) else 0
  }

  /** `calculate_card_power`: base power, plus the boosts of the other own cards at
      the location, minus the reductions of the opposing cards there, with no floor. */
  function CardPower(card: Card, lane: Lane, side: Side): (r: int)
    // A card alone at a location, facing nobody, has its base power.
    ensures Row(lane, side) == [card] && Row(lane, side.Other()) == [] ==> r == card.power
  {
    SumSingle(card, BoostTo(card));
    card.power + Sum(Row(lane, side), BoostTo(card)) - Sum(Row(lane, side.Other()), OpponentReduction)
  }

  function PowerAt(lane: Lane, side: Side): Card -> int {
    c => CardPower(c, lane, side)
  }

  /** The total power of one side at a location: its cards' powers added up. */
  function LocationPower(lane: Lane, side: Side): (r: int)
    ensures Row(lane, side) == [] ==> r == 0
  {
    Sum(Row(lane, side), PowerAt(lane, side))
  }

  /** The boost loop of `calculate_card_power`: what the other cards of `cards` add. */
  method SumBoosts(cards: seq<Card>, card: Card) returns (added: int)
    ensures added == Sum(cards, BoostTo(card))
  {
    added := 0;
    var j := 0;
    while j < |cards|
      invariant 0 <= j <= |cards|
      invariant added == Sum(cards[..j], BoostTo(card))
    {
      var other := cards[j];
      if other != card && BoostsOthers(other) {
        added := added + other.effect.value.value;
      }
      assert cards[..j + 1][..j] == cards[..j];
      j := j + 1;
    }
    assert cards[..j] == cards;
  }

  /** The reduction loop of `calculate_card_power`: what the opposing cards take away. */
  method SumReductions(opposing: seq<Card>) returns (taken: int)
    ensures taken == Sum(opposing, OpponentReduction)
  {
    taken := 0;
    var k := 0;
    while k < |opposing|
      invariant 0 <= k <= |opposing|
      invariant taken == Sum(opposing[..k], OpponentReduction)
    {
      var o := opposing[k];
      if ReducesOpponent(o) {
        taken := taken + o.effect.value.value;
      }
      assert opposing[..k + 1][..k] == opposing[..k];
      k := k + 1;
    }
    assert opposing[..k] == opposing;
  }

  /** `calculate_location_power`, loop for loop. */
  method ComputeLocationPower(lane: Lane, side: Side) returns (total: int)
    ensures total == Sum(Row(lane, side), c => CardPower(c, lane, side))
  {
    var cards := Row(lane, side);
    var opposing := Row(lane, side.Other());
    var taken := SumReductions(opposing);
    total := 0;
    var i := 0;
    while i < |cards|
      invariant 0 <= i <= |cards|
      invariant total == Sum(cards[..i], PowerAt(lane, side))
    {
      var card := cards[i];
      var added := SumBoosts(cards, card);
      assert card.power + added - taken == CardPower(card, lane, side);
      assert cards[..i + 1][..i] == cards[..i];
      total := total + (card.power + added - taken);
      i := i + 1;
    }
    assert cards[..i] == cards;
  }

  /** `side` takes `lane`: strictly more power there than the other side. */
  predicate Takes(lane: Lane, side: Side) {
    LocationPower(lane, side) > LocationPower(lane, side.Other())
  }

  /** The number of locations `side` takes. */
  function Points(lanes: seq<Lane>, side: Side): nat {
    if lanes == [] then 0 else (if Takes(lanes[0], side) then 1 else 0) + Points(lanes[1..], side)
  }

  /** The scoring loop of `calculate_winner`, from the running scores onwards. */
  function Tally(lanes: seq<Lane>, playerScore: int, opponentScore: int): (r: (int, int))
    ensures r.0 == playerScore + Points(lanes, Player)
    ensures r.1 == opponentScore + Points(lanes, Opponent)
    decreases |lanes|
  {
    if lanes == [] then
      (playerScore, opponentScore)
    else
      var pp := LocationPower(lanes[0], Player);
      var op := LocationPower(lanes[0], Opponent);
      if pp > op then Tally(lanes[1..], playerScore + 1, opponentScore)
      else if op > pp then Tally(lanes[1..], playerScore, opponentScore + 1)
      else Tally(lanes[1..], playerScore, opponentScore)
  }

  /** `calculate_winner`: the side that takes more locations wins. */
  function CalculateWinner(lanes: seq<Lane>): (w: Winner)
    ensures w == PlayerWon <==> Points(lanes, Player) > Points(lanes, Opponent)
    ensures w == OpponentWon <==> Points(lanes, Opponent) > Points(lanes, Player)
    ensures w == Tie <==> Points(lanes, Player) == Points(lanes, Opponent)
  {
    var (ps, os) := Tally(lanes, 0, 0);
    if ps > os then PlayerWon else if os > ps then OpponentWon else Tie
  }

  /** The energy each side starts the next turn with: the turn's grant plus what it
      did not spend. */
  function NextEnergy(s: SideState, nextTurn: int): SideState {
    s.(unusedEnergy := s.energy, energy := Min(nextTurn, EnergyCap) + s.energy)
  }

  /** `end_turn`: resolve the queued on-reveal effects and clear the queue; then
      either start the next turn (energy, one card each) or end the game. */
  function EndTurn(g: State): (r: State)
    ensures r.pendingOnReveal == [] && r.locations == g.locations
    ensures g.turn < MaxTurns ==>
              && r.turn == g.turn + 1
              && r.gameOver == g.gameOver && r.winner == g.winner
              && r.player.energy == Min(g.turn + 1, EnergyCap) + g.player.energy
              && r.opponent.energy == Min(g.turn + 1, EnergyCap) + g.opponent.energy
              && r.player.unusedEnergy == g.player.energy
              && r.opponent.unusedEnergy == g.opponent.energy
    ensures g.turn >= MaxTurns ==>
              && r.turn == g.turn
              && r.gameOver
              && r.winner == Some(CalculateWinner(g.locations))
              && r.player.energy == g.player.energy && r.opponent.energy == g.opponent.energy
  {
    var resolved := ResolveReveals(g, g.pendingOnReveal).(pendingOnReveal := []);
    if resolved.turn < MaxTurns then
      var turn := resolved.turn + 1;
      var advanced := resolved.(turn := turn,
                                player := NextEnergy(resolved.player, turn),
                                opponent := NextEnergy(resolved.opponent, turn));
      DrawFor(DrawFor(advanced, 1, Player), 1, Opponent)
    else
      resolved.(gameOver := true, winner := Some(CalculateWinner(resolved.locations)))
  }

  /** The table holds ten cards with the ids 1 to 10 in order, so no card occurs twice. */
  lemma GameCharactersCount()
    ensures |GameCharacters| == 10
    ensures forall i :: 0 <= i < |GameCharacters| ==> GameCharacters[i].id == i + 1
    ensures NoDuplicates(GameCharacters)
  {
  }

  /** `deck` is a shuffle of the card table. */
  predicate Shuffled(deck: seq<Card>) {
    multiset(deck) == multiset(GameCharacters)
  }

  /** `picks` are three distinct indices of the location table, as `random.sample`
      returns them. */
  predicate Picked(picks: seq<int>) {
    && |picks| == 3
    && (forall i :: 0 <= i < |picks| ==> 0 <= picks[i] < |GameLocations|)
    && (forall i, j :: 0 <= i < j < |picks| ==> picks[i] != picks[j])
  }

  /** A shuffle of the card table has as many cards as the table: ten. */
  lemma ShuffledSize(deck: seq<Card>)
    ensures Shuffled(deck) ==> |deck| == |GameCharacters| == 10
  {
    GameCharactersCount();
    if Shuffled(deck) {
      assert |deck| == |multiset(deck)|;
    }
  }

  /** `Game()`: the given decks, three cards drawn by each side, and the locations at
      the three given (distinct) indices of the location table, with empty rows. The
      decks may be in any order; the source passes shuffles of the card table, and for
      those each side holds three cards and keeps seven in its deck. */
  function NewGame(playerDeck: seq<Card>, opponentDeck: seq<Card>, picks: seq<int>): (g: State)
    requires Picked(picks)
    ensures g.turn == 1 && !g.gameOver && g.winner == None && g.pendingOnReveal == []
    ensures g.player.energy == 1 && g.opponent.energy == 1
    ensures Shuffled(playerDeck) ==>
              |g.player.hand| == OpeningHand && |g.player.deck| == |GameCharacters| - OpeningHand
    ensures Shuffled(opponentDeck) ==>
              |g.opponent.hand| == OpeningHand && |g.opponent.deck| == |GameCharacters| - OpeningHand
    ensures multiset(g.player.hand) + multiset(g.player.deck) == multiset(playerDeck)
    ensures multiset(g.opponent.hand) + multiset(g.opponent.deck) == multiset(opponentDeck)
    ensures |g.locations| == 3
    ensures forall i :: 0 <= i < 3 ==>
              && g.locations[i].name == GameLocations[picks[i]].name
              && g.locations[i].playerCards == [] && g.locations[i].opponentCards == []
  {
    State(1, OpeningSide(playerDeck), OpeningSide(opponentDeck), OpeningLanes(picks), false, None, [])
  }

  /** One side after the opening draw: up to three cards taken from the end of the
      deck, one energy; from a full shuffled deck that leaves three in hand and seven
      in the deck. */
  function OpeningSide(deck: seq<Card>): (s: SideState)
    ensures |s.hand| == DrawnCount(OpeningHand, |deck|) && |s.deck| == |deck| - |s.hand|
    ensures Shuffled(deck) ==> |s.hand| == OpeningHand && |s.deck| == |GameCharacters| - OpeningHand
    ensures multiset(s.hand) + multiset(s.deck) == multiset(deck)
    ensures s.energy == 1 && s.unusedEnergy == 0
  {
    ShuffledSize(deck);
    DrawMoves(SideState([], deck, 1, 0), OpeningHand);
    Draw(SideState([], deck, 1, 0), OpeningHand)
  }

  /** The three chosen locations, with empty rows. */
  function OpeningLanes(picks: seq<int>): (ls: seq<Lane>)
    requires Picked(picks)
    ensures |ls| == 3
    ensures forall i :: 0 <= i < 3 ==>
              && ls[i].name == GameLocations[picks[i]].name
              && ls[i].playerCards == [] && ls[i].opponentCards == []
  {
    seq(3, i requires 0 <= i < 3 =>
           Lane(GameLocations[picks[i]].name, GameLocations[picks[i]].effect, None, 0, [], []))
  }
}

=== FILE: game_facts.dfy ===
/** Properties of the match engine of `game.py` that relate several calls or hold
    for every reachable state. */
module GameFacts {
  import opened Options
  import opened Seqs
  import opened Cards
  import opened Board
  import opened Game

  // ---------------------------------------------------------------------------
  // Drawing

  /** Drawing `a` cards and then `b` cards is drawing `a + b` cards at once. */
  lemma {:induction false} DrawFromCompose<T>(hand: seq<T>, deck: seq<T>, a: nat, b: nat)
    ensures var once := DrawFrom(hand, deck, a);
            DrawFrom(once.0, once.1, b) == DrawFrom(hand, deck, a + b)
    decreases a
  {
    if a == 0 {
      assert DrawFrom(hand, deck, a) == (hand, deck);
    } else if |deck| == 0 {
      assert DrawFrom(hand, deck, a) == (hand, deck);
      assert DrawFrom(hand, deck, b) == (hand, deck);
      assert DrawFrom(hand, deck, a + b) == (hand, deck);
    } else {
      var hand' := hand + [deck[|deck| - 1]];
      var deck' := deck[..|deck| - 1];
      assert DrawFrom(hand, deck, a) == DrawFrom(hand', deck', a - 1);
      assert DrawFrom(hand, deck, a + b) == DrawFrom(hand', deck', a - 1 + b);
      DrawFromCompose(hand', deck', a - 1, b);
    }
  }

  lemma DrawCompose(s: SideState, a: nat, b: nat)
    ensures Draw(Draw(s, a), b) == Draw(s, a + b)
  {
    DrawFromCompose(s.hand, s.deck, a, b);
  }

  /** Both sides draw: first the player, then the opponent. */
  function DrawBoth(g: State, forPlayer: int, forOpponent: int): State {
    DrawFor(DrawFor(g, forPlayer, Player), forOpponent, Opponent)
  }

  /** The cards the queued on-reveal entries of `side` ask to draw, in total. */
  function RequestedDraws(queue: seq<PendingReveal>, side: Side): nat {
    if queue == [] then 0
    else (if queue[0].side == side then RevealDraw(queue[0].card) else 0) + RequestedDraws(queue[1..], side)
  }

  /** Resolving the on-reveal queue in play order draws, for each side, exactly the
      total its entries ask for (capped by its deck), as one draw per side would. */
  lemma {:induction false} ResolveRevealsDraws(g: State, queue: seq<PendingReveal>)
    ensures ResolveReveals(g, queue) ==
            DrawBoth(g, RequestedDraws(queue, Player), RequestedDraws(queue, Opponent))
    decreases |queue|
  {
    if queue == [] {
      DrawNothing(g, 0, Player);
      DrawNothing(DrawFor(g, 0, Player), 0, Opponent);
    } else {
      var e := queue[0];
      var d := RevealDraw(e.card);
      var g1 := ProcessOnReveal(g, e.card, e.locationIndex, e.side);
      var rp := RequestedDraws(queue[1..], Player);
      var ro := RequestedDraws(queue[1..], Opponent);
      ResolveRevealsDraws(g1, queue[1..]);
      if e.side == Player {
        DrawCompose(g.player, d, rp);
      } else {
        DrawCompose(g.opponent, d, ro);
      }
    }
  }

  /** The hand and deck of `side` after `end_turn`: the queued draws of that side,
      plus one more card when the game goes on, drawn as a single draw. */
  lemma EndTurnDraws(g: State, side: Side)
    ensures var extra := if g.turn < MaxTurns then 1 else 0;
            var expected := Draw(SideOf(g, side), RequestedDraws(g.pendingOnReveal, side) + extra);
            SideOf(EndTurn(g), side).hand == expected.hand && SideOf(EndTurn(g), side).deck == expected.deck
  {
    var n := RequestedDraws(g.pendingOnReveal, side);
    ResolvedSide(g, side);
    EndTurnSide(g, side);
    if g.turn < MaxTurns {
      DrawCompose(SideOf(g, side), n, 1);
    }
  }

  /** What resolving the queue leaves to `side`: one draw of its requested total. */
  lemma ResolvedSide(g: State, side: Side)
    ensures SideOf(ResolveReveals(g, g.pendingOnReveal), side) ==
            Draw(SideOf(g, side), RequestedDraws(g.pendingOnReveal, side))
  {
    var q := g.pendingOnReveal;
    ResolveRevealsDraws(g, q);
    DrawBothSide(g, RequestedDraws(q, Player), RequestedDraws(q, Opponent), side);
  }

  /** Each side's part of `DrawBoth` is a draw of its own count. */
  lemma DrawBothSide(g: State, forPlayer: int, forOpponent: int, side: Side)
    ensures SideOf(DrawBoth(g, forPlayer, forOpponent), side) ==
            Draw(SideOf(g, side), if side == Player then forPlayer else forOpponent)
  {
  }

  /** After the queue is resolved, `end_turn` draws one more card for `side` when the
      game goes on and none when it ends. */
  lemma EndTurnSide(g: State, side: Side)
    ensures var before := SideOf(ResolveReveals(g, g.pendingOnReveal), side);
            var after := SideOf(EndTurn(g), side);
            if g.turn < MaxTurns then after.hand == Draw(before, 1).hand && after.deck == Draw(before, 1).deck
            else after.hand == before.hand && after.deck == before.deck
  {
    var resolved := ResolveReveals(g, g.pendingOnReveal).(pendingOnReveal := []);
    assert resolved.turn == g.turn;
    assert SideOf(resolved, side) == SideOf(ResolveReveals(g, g.pendingOnReveal), side);
    if g.turn < MaxTurns {
      NextTurnDraws(resolved, g.turn + 1, side);
    }
  }

  /** Starting the next turn draws one card for `side` on top of what it holds. */
  lemma NextTurnDraws(resolved: State, turn: int, side: Side)
    ensures var next := resolved.(turn := turn,
                                  player := NextEnergy(resolved.player, turn),
                                  opponent := NextEnergy(resolved.opponent, turn));
            var r := SideOf(DrawFor(DrawFor(next, 1, Player), 1, Opponent), side);
            r.hand == Draw(SideOf(resolved, side), 1).hand && r.deck == Draw(SideOf(resolved, side), 1).deck
  {
  }

  // ---------------------------------------------------------------------------
  // Invariants of a match

  /** The cards `side` has on the board, over all locations. */
  function OnBoard(lanes: seq<Lane>, side: Side): multiset<Card> {
    if lanes == [] then multiset{} else multiset(Row(lanes[0], side)) + OnBoard(lanes[1..], side)
  }

  /** Every card `side` owns: hand, deck and board. */
  function Holdings(g: State, side: Side): multiset<Card> {
    multiset(SideOf(g, side).hand) + multiset(SideOf(g, side).deck) + OnBoard(g.locations, side)
  }

  /** The invariant the engine keeps: a turn in 1..5, three locations of at most four
      cards per side, no negative energy, and a winner exactly when the game is over,
      which happens only on the last turn. */
  predicate Valid(g: State) {
    && 1 <= g.turn <= MaxTurns
    && |g.locations| == 3
    && (forall i :: 0 <= i < |g.locations| ==>
          |g.locations[i].playerCards| <= RowCapacity && |g.locations[i].opponentCards| <= RowCapacity)
    && g.player.energy >= 0 && g.opponent.energy >= 0
    && (g.gameOver <==> g.winner.Some?)
    && (g.gameOver ==> g.turn == MaxTurns)
  }

  /** Replacing one location whose row for `side` gains the cards `extra` adds exactly
      `extra` to that side's board cards. */
  lemma {:induction false} OnBoardUpdate(lanes: seq<Lane>, i: nat, lane: Lane, side: Side, extra: multiset<Card>)
    requires i < |lanes|
    requires multiset(Row(lane, side)) == multiset(Row(lanes[i], side)) + extra
    ensures OnBoard(lanes[i := lane], side) == OnBoard(lanes, side) + extra
    decreases |lanes|
  {
    var updated := lanes[i := lane];
    assert OnBoard(updated, side) == multiset(Row(updated[0], side)) + OnBoard(updated[1..], side);
    assert OnBoard(lanes, side) == multiset(Row(lanes[0], side)) + OnBoard(lanes[1..], side);
    if i > 0 {
      assert updated[1..] == lanes[1..][i - 1 := lane];
      OnBoardUpdate(lanes[1..], i - 1, lane, side, extra);
    } else {
      assert updated[1..] == lanes[1..];
    }
  }

  lemma {:induction false} OnBoardEmpty(lanes: seq<Lane>, side: Side)
    requires forall i :: 0 <= i < |lanes| ==> Row(lanes[i], side) == []
    ensures OnBoard(lanes, side) == multiset{}
    decreases |lanes|
  {
    if lanes != [] {
      assert Row(lanes[0], side) == [];
      OnBoardEmpty(lanes[1..], side);
    }
  }

  /** A new match satisfies the invariant. */
  lemma NewGameValid(playerDeck: seq<Card>, opponentDeck: seq<Card>, picks: seq<int>)
    requires Picked(picks)
    ensures Valid(NewGame(playerDeck, opponentDeck, picks))
  {
  }

  /** In a new match each side owns exactly the cards of its deck. */
  lemma NewGameCards(playerDeck: seq<Card>, opponentDeck: seq<Card>, picks: seq<int>)
    requires Picked(picks)
    ensures var g := NewGame(playerDeck, opponentDeck, picks);
            Holdings(g, Player) == multiset(playerDeck) && Holdings(g, Opponent) == multiset(opponentDeck)
  {
    var g := NewGame(playerDeck, opponentDeck, picks);
    OpeningBoardEmpty(picks);
    HoldingsWithEmptyBoard(g, OpeningLanes(picks));
  }

  /** Off the board, a side owns its hand and its deck. */
  lemma HoldingsWithEmptyBoard(g: State, ls: seq<Lane>)
    requires g.locations == ls
    requires OnBoard(ls, Player) == multiset{} && OnBoard(ls, Opponent) == multiset{}
    ensures Holdings(g, Player) == multiset(g.player.hand) + multiset(g.player.deck)
    ensures Holdings(g, Opponent) == multiset(g.opponent.hand) + multiset(g.opponent.deck)
  {
  }

  /** Nobody has a card on the board of a new match. */
  lemma OpeningBoardEmpty(picks: seq<int>)
    requires Picked(picks)
    ensures OnBoard(OpeningLanes(picks), Player) == multiset{}
    ensures OnBoard(OpeningLanes(picks), Opponent) == multiset{}
  {
    OnBoardEmpty(OpeningLanes(picks), Player);
    OnBoardEmpty(OpeningLanes(picks), Opponent);
  }

  /** Moving `card` from the hand of `side` to the end of its row at location `i`
      keeps the cards `side` owns. */
  lemma MoveKeepsCards(g: State, g': State, i: nat, card: Card, side: Side)
    requires i < |g.locations| && |g'.locations| == |g.locations|
    requires multiset(SideOf(g', side).hand) + multiset{card} == multiset(SideOf(g, side).hand)
    requires SideOf(g', side).deck == SideOf(g, side).deck
    requires Row(g'.locations[i], side) == Row(g.locations[i], side) + [card]
    requires g'.locations == g.locations[i := g'.locations[i]]
    ensures Holdings(g', side) == Holdings(g, side)
  {
    OnBoardUpdate(g.locations, i, g'.locations[i], side, multiset{card});
  }

  /** A location update that leaves the row of `side` alone leaves its cards alone. */
  lemma OtherSideKeepsCards(g: State, g': State, i: nat, side: Side)
    requires i < |g.locations| && |g'.locations| == |g.locations|
    requires SideOf(g', side) == SideOf(g, side)
    requires Row(g'.locations[i], side) == Row(g.locations[i], side)
    requires g'.locations == g.locations[i := g'.locations[i]]
    ensures Holdings(g', side) == Holdings(g, side)
  {
    OnBoardUpdate(g.locations, i, g'.locations[i], side, multiset{});
  }

  /** `play_card` moves a card from a hand to the board: no card is created or lost. */
  lemma PlayCardKeepsCards(g: State, cardIndex: int, locationIndex: int, side: Side)
    requires !g.gameOver ==> 0 <= cardIndex && 0 <= locationIndex < |g.locations|
    ensures var r := PlayCard(g, cardIndex, locationIndex, side);
            && Holdings(r.state, Player) == Holdings(g, Player)
            && Holdings(r.state, Opponent) == Holdings(g, Opponent)
  {
    var r := PlayCard(g, cardIndex, locationIndex, side);
    if r.ok {
      var card := SideOf(g, side).hand[cardIndex];
      assert r.state.locations == g.locations[locationIndex := r.state.locations[locationIndex]];
      MoveKeepsCards(g, r.state, locationIndex, card, side);
      OtherSideKeepsCards(g, r.state, locationIndex, side.Other());
      assert side == Player || side.Other() == Player;
    }
  }

  /** `play_card` keeps the invariant: in particular a row never reaches five cards
      and energy never goes below zero. */
  lemma PlayCardValid(g: State, cardIndex: int, locationIndex: int, side: Side)
    requires Valid(g)
    requires !g.gameOver ==> 0 <= cardIndex && 0 <= locationIndex < |g.locations|
    ensures Valid(PlayCard(g, cardIndex, locationIndex, side).state)
  {
    var r := PlayCard(g, cardIndex, locationIndex, side);
    if r.ok {
      var lane := g.locations[locationIndex];
      var lane' := r.state.locations[locationIndex];
      forall i | 0 <= i < |r.state.locations|
        ensures |r.state.locations[i].playerCards| <= RowCapacity
        ensures |r.state.locations[i].opponentCards| <= RowCapacity
      {
        if i == locationIndex {
          assert |Row(lane', side.Other())| <= RowCapacity by {
            assert Row(lane', side.Other()) == Row(lane, side.Other());
            assert Row(lane, side.Other()) == lane.playerCards || Row(lane, side.Other()) == lane.opponentCards;
          }
          assert |Row(lane', side)| <= RowCapacity;
          assert lane'.playerCards == Row(lane', side) || lane'.playerCards == Row(lane', side.Other());
          assert lane'.opponentCards == Row(lane', side) || lane'.opponentCards == Row(lane', side.Other());
        }
      }
      assert SideOf(r.state, side).energy >= 0;
      assert SideOf(r.state, side.Other()) == SideOf(g, side.Other());
    }
  }

  /** `end_turn` keeps the cards each side owns. */
  lemma EndTurnKeepsCards(g: State)
    ensures Holdings(EndTurn(g), Player) == Holdings(g, Player)
    ensures Holdings(EndTurn(g), Opponent) == Holdings(g, Opponent)
  {
    EndTurnKeepsSide(g, Player);
    EndTurnKeepsSide(g, Opponent);
  }

  lemma EndTurnKeepsSide(g: State, side: Side)
    ensures Holdings(EndTurn(g), side) == Holdings(g, side)
  {
    var r := EndTurn(g);
    EndTurnDraws(g, side);
    var extra := if g.turn < MaxTurns then 1 else 0;
    DrawKeepsCards(SideOf(g, side), RequestedDraws(g.pendingOnReveal, side) + extra);
    assert r.locations == g.locations;
    ZonesKeepHoldings(g, r, side);
  }

  /** A draw moves cards from the deck to the hand and loses none. */
  lemma DrawKeepsCards(s: SideState, count: int)
    ensures multiset(Draw(s, count).hand) + multiset(Draw(s, count).deck) == multiset(s.hand) + multiset(s.deck)
  {
    DrawMoves(s, count);
  }

  /** Same board and the same cards between hand and deck: the same holdings. */
  lemma ZonesKeepHoldings(g: State, r: State, side: Side)
    requires r.locations == g.locations
    requires multiset(SideOf(r, side).hand) + multiset(SideOf(r, side).deck) ==
             multiset(SideOf(g, side).hand) + multiset(SideOf(g, side).deck)
    ensures Holdings(r, side) == Holdings(g, side)
  {
  }

  /** `end_turn` keeps the invariant: the turn stays within 1..5, energy stays
      non-negative, and a winner is set exactly when the game ends. */
  lemma EndTurnValid(g: State)
    requires Valid(g)
    ensures Valid(EndTurn(g))
  {
  }

  /** After the last turn ends, the game is over and every `play_card` is refused. */
  lemma GameOverIsFinal(g: State, cardIndex: int, locationIndex: int, side: Side)
    requires g.turn == MaxTurns
    ensures EndTurn(g).gameOver && EndTurn(g).winner.Some?
    ensures var r := PlayCard(EndTurn(g), cardIndex, locationIndex, side);
            !r.ok && r.reason == GameIsOver && r.state == EndTurn(g)
  {
  }

  /** `end_turn` called `n` times. */
  function EndTurns(g: State, n: nat): State
    decreases n
  {
    if n == 0 then g else EndTurns(EndTurn(g), n - 1)
  }

  /** From any valid state, `MaxTurns - turn + 1` calls of `end_turn` end the game
      (five calls from the first turn), keeping the invariant throughout. */
  lemma {:induction false} EndTurnsFinish(g: State)
    requires Valid(g)
    ensures var r := EndTurns(g, MaxTurns - g.turn + 1);
            Valid(r) && r.gameOver && r.winner.Some?
    decreases MaxTurns - g.turn
  {
    var next := EndTurn(g);
    EndTurnValid(g);
    if g.turn < MaxTurns {
      assert next.turn == g.turn + 1;
      EndTurnsFinish(next);
      assert EndTurns(g, MaxTurns - g.turn + 1) == EndTurns(next, MaxTurns - next.turn + 1);
    } else {
      assert EndTurns(g, 1) == next;
    }
  }

  // ---------------------------------------------------------------------------
  // Power and winner

  /** A card's power does not depend on the order of either row at its location. */
  lemma CardPowerOrderIndependent(card: Card, a: Lane, b: Lane, side: Side)
    requires multiset(Row(a, side)) == multiset(Row(b, side))
    requires multiset(Row(a, side.Other())) == multiset(Row(b, side.Other()))
    ensures CardPower(card, a, side) == CardPower(card, b, side)
  {
    SumPermutation(Row(a, side), Row(b, side), BoostTo(card));
    SumPermutation(Row(a, side.Other()), Row(b, side.Other()), OpponentReduction);
  }

  /** Nor does a side's total power at a location. */
  lemma LocationPowerOrderIndependent(a: Lane, b: Lane, side: Side)
    requires multiset(Row(a, side)) == multiset(Row(b, side))
    requires multiset(Row(a, side.Other())) == multiset(Row(b, side.Other()))
    ensures LocationPower(a, side) == LocationPower(b, side)
  {
    forall i | 0 <= i < |Row(a, side)|
      ensures PowerAt(a, side)(Row(a, side)[i]) == PowerAt(b, side)(Row(a, side)[i])
    {
      CardPowerOrderIndependent(Row(a, side)[i], a, b, side);
    }
    SumPointwise(Row(a, side), PowerAt(a, side), PowerAt(b, side));
    SumPermutation(Row(a, side), Row(b, side), PowerAt(b, side));
  }

  /** In a row without repeated cards, "every other card" compared by value is every
      card at another index: the boost a card receives is the boosts of the row with
      that card taken out. */
  lemma BoostFromOthers(row: seq<Card>, i: int)
    requires 0 <= i < |row| && NoDuplicates(row)
    ensures Sum(row, BoostTo(row[i])) == Sum(RemoveAt(row, i), BoostValue)
  {
    var c := row[i];
    var before := row[..i];
    var after := row[i + 1..];
    assert row == before + [c] + after;
    SumAppend(before + [c], after, BoostTo(c));
    SumAppend(before, [c], BoostTo(c));
    assert Sum([c], BoostTo(c)) == 0 by {
      assert [c][..0] == [];
    }
    SumPointwise(before, BoostTo(c), BoostValue);
    forall k | 0 <= k < |after|
      ensures BoostTo(c)(after[k]) == BoostValue(after[k])
    {
      assert after[k] == row[i + 1 + k];
    }
    SumPointwise(after, BoostTo(c), BoostValue);
    SumAppend(before, after, BoostValue);
  }

  /** Each side owns exactly one copy of every card of the table, as after a deal from
      shuffled decks. */
  predicate Dealt(g: State) {
    Holdings(g, Player) == multiset(GameCharacters) && Holdings(g, Opponent) == multiset(GameCharacters)
  }

  /** A match dealt from two shuffles of the table starts dealt. */
  lemma NewGameDealt(playerDeck: seq<Card>, opponentDeck: seq<Card>, picks: seq<int>)
    requires Picked(picks)
    ensures Shuffled(playerDeck) && Shuffled(opponentDeck) ==> Dealt(NewGame(playerDeck, opponentDeck, picks))
  {
    NewGameCards(playerDeck, opponentDeck, picks);
  }

  /** A play, accepted or refused, leaves a dealt match dealt. */
  lemma PlayCardKeepsDealt(g: State, cardIndex: int, locationIndex: int, side: Side)
    requires !g.gameOver ==> 0 <= cardIndex && 0 <= locationIndex < |g.locations|
    ensures Dealt(g) ==> Dealt(PlayCard(g, cardIndex, locationIndex, side).state)
  {
    PlayCardKeepsCards(g, cardIndex, locationIndex, side);
  }

  /** The end of a turn leaves a dealt match dealt. */
  lemma EndTurnKeepsDealt(g: State)
    ensures Dealt(g) ==> Dealt(EndTurn(g))
  {
    EndTurnKeepsCards(g);
  }

  /** One location's row is part of the side's board cards. */
  lemma {:induction false} RowOnBoard(lanes: seq<Lane>, i: int, side: Side)
    requires 0 <= i < |lanes|
    ensures multiset(Row(lanes[i], side)) <= OnBoard(lanes, side)
    decreases i
  {
    if i > 0 {
      RowOnBoard(lanes[1..], i - 1, side);
      assert lanes[1..][i - 1] == lanes[i];
    }
  }

  /** In a dealt match no row holds the same card twice, so the boost a card receives is
      the boosts of the rest of its row. */
  lemma DealtRows(g: State, i: int, side: Side, k: int)
    requires 0 <= i < |g.locations| && 0 <= k < |Row(g.locations[i], side)|
    ensures Dealt(g) ==> NoDuplicates(Row(g.locations[i], side))
    ensures var row := Row(g.locations[i], side);
            Dealt(g) ==> Sum(row, BoostTo(row[k])) == Sum(RemoveAt(row, k), BoostValue)
  {
    if Dealt(g) {
      var row := Row(g.locations[i], side);
      RowOnBoard(g.locations, i, side);
      assert multiset(row) <= Holdings(g, side);
      GameCharactersCount();
      NoDuplicatesBelow(row, GameCharacters);
      BoostFromOthers(row, k);
    }
  }

  /** `lanes` seen from the other side. */
  function SwapAll(lanes: seq<Lane>): (r: seq<Lane>)
    ensures |r| == |lanes|
    ensures forall i :: 0 <= i < |lanes| ==> r[i] == Swapped(lanes[i])
  {
    if lanes == [] then [] else [Swapped(lanes[0])] + SwapAll(lanes[1..])
  }

  function Mirror(w: Winner): Winner {
    match w
    case PlayerWon => OpponentWon
    case OpponentWon => PlayerWon
    case Tie => Tie
  }

  lemma SwappedLocationPower(lane: Lane, side: Side)
    ensures LocationPower(Swapped(lane), side) == LocationPower(lane, side.Other())
  {
    var row := Row(lane, side.Other());
    forall i | 0 <= i < |row|
      ensures PowerAt(Swapped(lane), side)(row[i]) == PowerAt(lane, side.Other())(row[i])
    {
      assert side.Other().Other() == side;
    }
    SumPointwise(row, PowerAt(Swapped(lane), side), PowerAt(lane, side.Other()));
  }

  lemma {:induction false} SwappedPoints(lanes: seq<Lane>, side: Side)
    ensures Points(SwapAll(lanes), side) == Points(lanes, side.Other())
    decreases |lanes|
  {
    if lanes != [] {
      SwappedLocationPower(lanes[0], side);
      SwappedLocationPower(lanes[0], side.Other());
      assert side.Other().Other() == side;
      assert SwapAll(lanes)[1..] == SwapAll(lanes[1..]);
      SwappedPoints(lanes[1..], side);
    }
  }

  /** Exchanging the two sides' cards everywhere exchanges the winner; a tie stays a tie. */
  lemma WinnerSymmetric(lanes: seq<Lane>)
    ensures CalculateWinner(SwapAll(lanes)) == Mirror(CalculateWinner(lanes))
  {
    SwappedPoints(lanes, Player);
    SwappedPoints(lanes, Opponent);
  }

  /** The winner compares points and never credits a location to both sides. */
  lemma {:induction false} PointsBounded(lanes: seq<Lane>)
    ensures Points(lanes, Player) + Points(lanes, Opponent) <= |lanes|
    decreases |lanes|
  {
    if lanes != [] {
      PointsBounded(lanes[1..]);
    }
  }

  // ---------------------------------------------------------------------------
  // Concrete scenarios

  /** `game.py` keeps a copy of the card catalog; the two tables agree entry for entry. */
  lemma TablesAgree()
    ensures GameCharacters == Characters
  {
  }

  /** Iron Man (base 5, ongoing +2 to the other cards) alone at a location keeps its
      base power; Wasp (base 1) joining it has 3, and the location totals 8. */
  lemma BoostScenario()
    ensures var ironMan := GameCharacters[0];
            var wasp := GameCharacters[9];
            var alone := Lane("Asgard", "Cards here cost 1 less.", None, 0, [ironMan], []);
            var pair := Lane("Asgard", "Cards here cost 1 less.", None, 0, [ironMan, wasp], []);
            && CardPower(ironMan, alone, Player) == 5
            && CardPower(wasp, pair, Player) == 3
            && CardPower(ironMan, pair, Player) == 5
            && LocationPower(pair, Player) == 8
  {
    var ironMan := GameCharacters[0];
    var wasp := GameCharacters[9];
    assert ironMan != wasp;
    assert BoostValue(ironMan) == 2 && BoostValue(wasp) == 0;
    assert [ironMan, wasp][..1] == [ironMan];
    assert [ironMan][..0] == [];
    assert Sum([ironMan], BoostTo(ironMan)) == 0;
    assert Sum([ironMan, wasp], BoostTo(ironMan)) == 0;
    assert Sum([ironMan], BoostTo(wasp)) == 2;
    assert [ironMan, wasp][1] == wasp;
    assert Sum([ironMan, wasp], BoostTo(wasp)) == Sum([ironMan], BoostTo(wasp)) + BoostTo(wasp)(wasp);
    var pair := Lane("Asgard", "Cards here cost 1 less.", None, 0, [ironMan, wasp], []);
    assert Sum([ironMan, wasp], PowerAt(pair, Player)) == 8 by {
      assert Sum([ironMan], PowerAt(pair, Player)) == 5;
    }
  }
}

=== FILE: locations.dfy ===
/** Location definitions and the location catalog of `locations_data.py`. */
module Locations {

  /** The `effect_type` string of a location. Strings no handler knows are kept
      as `OtherLocationEffect`. */
  datatype LocationEffect =
    | CostReduction
    | AddPower
    | DrawCard
    | SingleCardBonus
    | OtherLocationEffect(kind: string)

  /** The string the source stores for each effect type. */
  function TypeName(e: LocationEffect): string {
    match e
    case CostReduction => "cost_reduction"
    case AddPower => "power_boost"
    case DrawCard => "draw_card"
    case SingleCardBonus => "single_card_bonus"
    case OtherLocationEffect(k) => k
  }

  datatype LocationDef = LocationDef(
    name: string,
    effect: string,
    effectType: LocationEffect,
    effectValue: int,
    description: string)

  const Locations: seq<LocationDef> := [
    LocationDef("Asgard", "All cards cost 1 less.", CostReduction, 1,
                "Reduces the cost of all cards played here"),
    LocationDef("Wakanda", "Add 1 power to all cards here.", AddPower, 1,
                "Boosts power of all cards at this location"),
    LocationDef("New York", "Draw a card.", DrawCard, 1,
                "Draws a card when any card is played here"),
    LocationDef("Sanctum Sanctorum", "If you have one card here, +5 power.", SingleCardBonus, 5,
                "Gives +5 power when only one card is present")
  ]

  /** `LOCATION_EFFECT_TYPES`: the known effect-type strings and their descriptions. */
  const LocationEffectTypes: map<string, string> := map[
    "cost_reduction" := "Reduces the cost of cards played at this location",
    "power_boost" := "Increases the power of cards at this location",
    "draw_card" := "Draws cards when cards are played at this location",
    "single_card_bonus" := "Gives bonus power when only one card is present"
  ]

  /** Four locations with pairwise distinct names, each of a known effect type and a
      positive effect value. */
  lemma CatalogWellFormed()
    ensures |Locations| == 4
    ensures forall i, j :: 0 <= i < j < |Locations| ==> Locations[i].name != Locations[j].name
    ensures forall i :: 0 <= i < |Locations| ==> TypeName(Locations[i].effectType) in LocationEffectTypes
    ensures forall i :: 0 <= i < |Locations| ==> Locations[i].effectValue > 0
  {
  }

  /** Exactly one location reduces costs, by 1; the single-card bonus location gives 5. */
  lemma CatalogEffects()
    ensures forall i :: 0 <= i < |Locations| && Locations[i].effectType == CostReduction ==> i == 0
    ensures Locations[0].effectType == CostReduction && Locations[0].effectValue == 1
    ensures forall i :: 0 <= i < |Locations| && Locations[i].effectType == SingleCardBonus ==>
              Locations[i].effectValue == 5
  {
  }
}

=== FILE: matchmaking.dfy ===
/** The queue and pairing bookkeeping of `matchmaking.py` (`MatchmakingSystem`),
    modelled sequentially: one call at a time, so the lock has nothing to do.

    A match's engine instance is left abstract: a game record holds the two
    players and the hand data they queued with, and nothing of the match itself. */
module Matchmaking {
  import opened Options
  import opened Seqs

  type PlayerId = string

  /** A queue entry: the player and the hand data sent when queueing. */
  datatype Entry = Entry(playerId: PlayerId, handData: seq<int>)

  /** An `active_games` value: the players in queue order and their hand data. */
  datatype GameRecord = GameRecord(player1: PlayerId, player2: PlayerId, hand1: seq<int>, hand2: seq<int>)

  datatype System = System(
    queue: seq<Entry>,
    activeGames: map<string, GameRecord>,
    playerToGame: map<PlayerId, string>,
    counter: nat)

  /** The result of `add_player_to_queue`: the success flag, the message, the new state. */
  datatype Reply = Reply(ok: bool, reason: string, sys: System)

  /** The result of `get_queue_status`. */
  datatype QueueStatus = NotQueued | Queued(position: nat, queueSize: nat)

  const AlreadyInQueue := "Already in queue"
  const AlreadyInGame := "Already in a game"
  const AddedToQueue := "Added to queue"

  /** A fresh system: empty queue, no games, counter at zero. */
  function Initial(): (s: System)
    ensures Valid(s) && Clean(s)
  {
    System([], map[], map[], 0)
  }

  // ---------------------------------------------------------------------------
  // Game ids

  function Digit(d: nat): char
    requires d < 10
  {
    (d + 48) as char
  }

  /** The decimal numeral of `n`, as Python's `str` writes it. */
  function NatToString(n: nat): string
    decreases n
  {
    if n < 10 then [Digit(n)] else NatToString(n / 10) + [Digit(n % 10)]
  }

  /** Distinct numbers have distinct numerals. */
  lemma {:induction false} NatToStringInjective(a: nat, b: nat)
    requires NatToString(a) == NatToString(b)
    ensures a == b
    decreases a
  {
    if a < 10 && b < 10 {
      assert NatToString(a)[0] == NatToString(b)[0];
    } else if a < 10 {
      NumeralLength(b / 10);
      assert false;
    } else if b < 10 {
      NumeralLength(a / 10);
      assert false;
    } else {
      var sa := NatToString(a);
      var sb := NatToString(b);
      assert sa[|sa| - 1] == sb[|sb| - 1];
      assert a % 10 == b % 10;
      assert sa[..|sa| - 1] == NatToString(a / 10);
      assert sb[..|sb| - 1] == NatToString(b / 10);
      NatToStringInjective(a / 10, b / 10);
    }
  }

  lemma NumeralLength(n: nat)
    ensures |NatToString(n)| >= 1
  {
  }

  /** The id `_create_game` gives the game of counter value `n`. */
  function GameName(n: nat): string {
    "game_" + NatToString(n)
  }

  /** Distinct counter values give distinct game ids. */
  lemma GameNameInjective(a: nat, b: nat)
    requires GameName(a) == GameName(b)
    ensures a == b
  {
    assert GameName(a)[5..] == NatToString(a);
    assert GameName(b)[5..] == NatToString(b);
    NatToStringInjective(a, b);
  }

  // ---------------------------------------------------------------------------
  // State invariants

  predicate InQueue(q: seq<Entry>, p: PlayerId) {
    exists i :: 0 <= i < |q| && q[i].playerId == p
  }

  /** `s.counter` has named no more than the first `counter` games. */
  predicate IssuedId(s: System, g: string) {
    exists k :: 1 <= k <= s.counter && g == GameName(k)
  }

  /** At most one player waits (a second arrival is paired at once), and a waiting
      player is in no game. */
  predicate QueueOk(s: System) {
    && |s.queue| <= 1
    && (forall i :: 0 <= i < |s.queue| ==> s.queue[i].playerId !in s.playerToGame)
  }

  /** Every game id in use was issued by the counter. */
  predicate IdsIssued(s: System) {
    && (forall g :: g in s.activeGames ==> IssuedId(s, g))
    && (forall p :: p in s.playerToGame ==> IssuedId(s, s.playerToGame[p]))
  }

  /** Both (distinct) players of an active game are mapped to it, and no one else is. */
  predicate GamesMapped(s: System) {
    && (forall g :: g in s.activeGames ==>
          && s.activeGames[g].player1 != s.activeGames[g].player2
          && s.activeGames[g].player1 in s.playerToGame
          && s.playerToGame[s.activeGames[g].player1] == g
          && s.activeGames[g].player2 in s.playerToGame
          && s.playerToGame[s.activeGames[g].player2] == g)
    && (forall p :: p in s.playerToGame && s.playerToGame[p] in s.activeGames ==>
          p == s.activeGames[s.playerToGame[p]].player1 || p == s.activeGames[s.playerToGame[p]].player2)
  }

  /** The invariant every operation keeps. */
  predicate Valid(s: System) {
    QueueOk(s) && IdsIssued(s) && GamesMapped(s)
  }

  /** No dangling entries: every mapped player belongs to an active game. */
  predicate Clean(s: System) {
    forall p :: p in s.playerToGame ==> s.playerToGame[p] in s.activeGames
  }

  /** The next id is new: no active game and no mapped player uses it. */
  lemma NextIdFresh(s: System)
    requires Valid(s)
    ensures GameName(s.counter + 1) !in s.activeGames
    ensures forall p :: p in s.playerToGame ==> s.playerToGame[p] != GameName(s.counter + 1)
  {
    if GameName(s.counter + 1) in s.activeGames {
      var k :| 1 <= k <= s.counter && GameName(s.counter + 1) == GameName(k);
      GameNameInjective(k, s.counter + 1);
    }
    forall p | p in s.playerToGame
      ensures s.playerToGame[p] != GameName(s.counter + 1)
    {
      var k :| 1 <= k <= s.counter && s.playerToGame[p] == GameName(k);
      if s.playerToGame[p] == GameName(s.counter + 1) {
        GameNameInjective(k, s.counter + 1);
      }
    }
  }

  // ---------------------------------------------------------------------------
  // Operations

  /** `_create_game` (bookkeeping only): count the game, record it under its new id and
      map both players to that id. */
  function CreateGame(s: System, first: Entry, second: Entry): (r: (System, string))
    ensures r.0.counter == s.counter + 1 && r.1 == GameName(r.0.counter)
    ensures r.0.queue == s.queue
    ensures r.1 in r.0.activeGames
    ensures r.0.activeGames[r.1] ==
              GameRecord(first.playerId, second.playerId, first.handData, second.handData)
    ensures forall g :: g != r.1 ==> (g in r.0.activeGames <==> g in s.activeGames)
    ensures forall g :: g != r.1 && g in s.activeGames ==> r.0.activeGames[g] == s.activeGames[g]
    ensures first.playerId in r.0.playerToGame && second.playerId in r.0.playerToGame
    ensures r.0.playerToGame[first.playerId] == r.1 && r.0.playerToGame[second.playerId] == r.1
    ensures forall p :: p != first.playerId && p != second.playerId ==>
              (p in r.0.playerToGame <==> p in s.playerToGame)
    ensures forall p :: p != first.playerId && p != second.playerId && p in s.playerToGame ==>
              r.0.playerToGame[p] == s.playerToGame[p]
  {
    var counter := s.counter + 1;
    var id := GameName(counter);
    var rec := GameRecord(first.playerId, second.playerId, first.handData, second.handData);
    (s.(counter := counter,
        activeGames := s.activeGames[id := rec],
        playerToGame := s.playerToGame[first.playerId := id][second.playerId := id]),
     id)
  }

  /** `_try_match_players`: with two or more waiting, the two earliest leave the queue
      (the rest keeping their order) and are paired, the earlier as player 1. */
  function TryMatch(s: System): (r: System)
    ensures |s.queue| < 2 ==> r == s
    ensures |s.queue| >= 2 ==>
              && r.queue == s.queue[2..]
              && r.counter == s.counter + 1
              && GameName(r.counter) in r.activeGames
              && r.activeGames[GameName(r.counter)].player1 == s.queue[0].playerId
              && r.activeGames[GameName(r.counter)].player2 == s.queue[1].playerId
    // The new game is recorded with both hands, both players map to it, and every other
    // game and mapping stays as it was.
    ensures |s.queue| >= 2 ==>
              var id := GameName(s.counter + 1);
              && r.activeGames == s.activeGames[id := GameRecord(s.queue[0].playerId, s.queue[1].playerId,
                                                                 s.queue[0].handData, s.queue[1].handData)]
              && r.playerToGame == s.playerToGame[s.queue[0].playerId := id][s.queue[1].playerId := id]
  {
    if |s.queue| >= 2 then CreateGame(s.(queue := s.queue[2..]), s.queue[0], s.queue[1]).0
    else s
  }

  /** `add_player_to_queue`: refuse a player already waiting, then one already in a
      game, leaving the state as it was; otherwise queue the player and pair at once
      if someone else was waiting. */
  function AddPlayerToQueue(s: System, p: PlayerId, handData: seq<int>): (r: Reply)
    ensures InQueue(s.queue, p) ==> r == Reply(false, AlreadyInQueue, s)
    ensures !InQueue(s.queue, p) && p in s.playerToGame ==> r == Reply(false, AlreadyInGame, s)
    ensures r.ok <==> !InQueue(s.queue, p) && p !in s.playerToGame
    ensures r.ok ==> r.reason == AddedToQueue
    ensures r.ok && s.queue == [] ==>
              r.sys == s.(queue := [Entry(p, handData)])
    ensures r.ok && |s.queue| == 1 ==>
              var id := GameName(s.counter + 1);
              && r.sys.queue == []
              && r.sys.counter == s.counter + 1
              && GameName(r.sys.counter) in r.sys.activeGames
              && r.sys.activeGames[GameName(r.sys.counter)] ==
                 GameRecord(s.queue[0].playerId, p, s.queue[0].handData, handData)
              && r.sys.activeGames ==
                 s.activeGames[id := GameRecord(s.queue[0].playerId, p, s.queue[0].handData, handData)]
              && r.sys.playerToGame == s.playerToGame[s.queue[0].playerId := id][p := id]
    // With two or more already waiting (a state the pairing never leaves behind), the
    // newcomer joins the end of the queue and its two earliest entries are paired.
    ensures r.ok && |s.queue| >= 2 ==>
              var id := GameName(s.counter + 1);
              && r.sys.queue == s.queue[2..] + [Entry(p, handData)]
              && r.sys.counter == s.counter + 1
              && r.sys.activeGames ==
                 s.activeGames[id := GameRecord(s.queue[0].playerId, s.queue[1].playerId,
                                                s.queue[0].handData, s.queue[1].handData)]
              && r.sys.playerToGame == s.playerToGame[s.queue[0].playerId := id][s.queue[1].playerId := id]
    ensures |s.queue| <= 1 ==> |r.sys.queue| <= 1
  {
    if InQueue(s.queue, p) then Reply(false, AlreadyInQueue, s)
    else if p in s.playerToGame then Reply(false, AlreadyInGame, s)
    else
      var queued := s.(queue := s.queue + [Entry(p, handData)]);
      assert |s.queue| == 1 ==> queued.queue[2..] == [];
      assert |s.queue| >= 2 ==> queued.queue[2..] == s.queue[2..] + [Entry(p, handData)];
      Reply(true, AddedToQueue, TryMatch(queued))
  }

  /** The queue without the entries of `p`, the others kept in order. */
  function WithoutPlayer(q: seq<Entry>, p: PlayerId): seq<Entry>
    decreases |q|
  {
    if q == [] then []
    else WithoutPlayer(q[..|q| - 1], p) + (if q[|q| - 1].playerId == p then [] else [q[|q| - 1]])
  }

  /** The indices of the entries of `p` in `q`. */
  function Positions(q: seq<Entry>, p: PlayerId): set<int> {
    set i | 0 <= i < |q| && q[i].playerId == p
  }

  /** Filtering keeps exactly the entries at the other indices, in their order. */
  lemma {:induction false} WithoutPlayerKeepsOrder(q: seq<Entry>, p: PlayerId)
    ensures WithoutPlayer(q, p) == Without(q, Positions(q, p))
    decreases |q|
  {
    if q != [] {
      var init := q[..|q| - 1];
      WithoutPlayerKeepsOrder(init, p);
      WithoutInRange(init, Positions(init, p), Positions(q, p));
      assert (|q| - 1 in Positions(q, p)) <==> q[|q| - 1].playerId == p;
    }
  }

  /** Filtering removes every entry of `p` and keeps the count of every other entry. */
  lemma {:induction false} WithoutPlayerRemoves(q: seq<Entry>, p: PlayerId)
    ensures !InQueue(WithoutPlayer(q, p), p)
    ensures forall e: Entry :: e.playerId != p ==> multiset(WithoutPlayer(q, p))[e] == multiset(q)[e]
    decreases |q|
  {
    if q != [] {
      var init := q[..|q| - 1];
      var x := q[|q| - 1];
      WithoutPlayerRemoves(init, p);
      assert q == init + [x];
      var w := WithoutPlayer(init, p);
      if x.playerId != p {
        assert WithoutPlayer(q, p) == w + [x];
        forall i | 0 <= i < |w + [x]|
          ensures (w + [x])[i].playerId != p
        {
          if i < |w| {
            assert (w + [x])[i] == w[i];
          }
        }
      } else {
        assert WithoutPlayer(q, p) == w;
      }
    }
  }

  /** Filtering never lengthens the queue, and shortens it when `p` waits. */
  lemma {:induction false} WithoutPlayerShorter(q: seq<Entry>, p: PlayerId)
    ensures |WithoutPlayer(q, p)| <= |q|
    ensures InQueue(q, p) ==> |WithoutPlayer(q, p)| < |q|
    decreases |q|
  {
    if q != [] {
      var init := q[..|q| - 1];
      WithoutPlayerShorter(init, p);
      if InQueue(q, p) && !InQueue(init, p) {
        var i :| 0 <= i < |q| && q[i].playerId == p;
        if i < |q| - 1 {
          assert init[i].playerId == p;
        }
      }
    }
  }

  /** Filtering twice is filtering once. */
  lemma {:induction false} WithoutPlayerIdempotent(q: seq<Entry>, p: PlayerId)
    ensures WithoutPlayer(WithoutPlayer(q, p), p) == WithoutPlayer(q, p)
    decreases |q|
  {
    if q != [] {
      var init := q[..|q| - 1];
      WithoutPlayerIdempotent(init, p);
      var w := WithoutPlayer(init, p);
      var x := q[|q| - 1];
      if x.playerId != p {
        var wx := w + [x];
        assert wx[..|wx| - 1] == w && wx[|wx| - 1] == x;
        assert WithoutPlayer(wx, p) == WithoutPlayer(w, p) + [x];
        assert WithoutPlayer(q, p) == wx;
      } else {
        assert WithoutPlayer(q, p) == w;
      }
    }
  }

  /** `remove_player_from_queue`: drop every entry of `p`; nothing else changes. */
  function RemovePlayerFromQueue(s: System, p: PlayerId): (r: System)
    ensures r.queue == Without(s.queue, Positions(s.queue, p))
    ensures !InQueue(r.queue, p)
    ensures forall e: Entry :: e.playerId != p ==> multiset(r.queue)[e] == multiset(s.queue)[e]
    ensures |r.queue| <= |s.queue|
    ensures InQueue(s.queue, p) ==> |r.queue| < |s.queue|
    ensures r.activeGames == s.activeGames && r.playerToGame == s.playerToGame
    ensures r.counter == s.counter
  {
    WithoutPlayerRemoves(s.queue, p);
    WithoutPlayerShorter(s.queue, p);
    WithoutPlayerKeepsOrder(s.queue, p);
    s.(queue := WithoutPlayer(s.queue, p))
  }

  /** `get_player_game`: the record of the game `p` is mapped to, if that game is
      still active. */
  function GetPlayerGame(s: System, p: PlayerId): (r: Option<GameRecord>)
    ensures r.Some? <==> p in s.playerToGame && s.playerToGame[p] != "" &&
                         s.playerToGame[p] in s.activeGames
    ensures r.Some? ==> r.value == s.activeGames[s.playerToGame[p]]
  {
    if p in s.playerToGame && s.playerToGame[p] != "" && s.playerToGame[p] in s.activeGames then
      Some(s.activeGames[s.playerToGame[p]])
    else
      None
  }

  /** `dict.get`: the value under `k`, if any. */
  function Lookup<K, V>(m: map<K, V>, k: K): (r: Option<V>)
    ensures r.Some? <==> k in m
    ensures r.Some? ==> r.value == m[k]
  {
    if k in m then Some(m[k]) else None
  }

  /** The partner `remove_player_from_game` looks up: player 2 of `rec` when `p` is
      player 1, and player 1 otherwise. */
  function Partner(rec: GameRecord, p: PlayerId): PlayerId {
    if rec.player1 == p then rec.player2 else rec.player1
  }

  /** `remove_player_from_game` as written: the game and `p`'s mapping go, but the
      partner is looked up in the game table after the game was deleted from it, so
      the lookup finds nothing and the partner's mapping stays behind. */
  function RemovePlayerFromGameAsWritten(s: System, p: PlayerId): (r: System)
    ensures GetPlayerGame(s, p).None? ==> r == s
    ensures GetPlayerGame(s, p).Some? ==>
              && s.playerToGame[p] !in r.activeGames
              && r.activeGames == s.activeGames - {s.playerToGame[p]}
              && p !in r.playerToGame
              && r.playerToGame == s.playerToGame - {p}
              && r.queue == s.queue && r.counter == s.counter
  {
    if p in s.playerToGame && s.playerToGame[p] != "" && s.playerToGame[p] in s.activeGames then
      var id := s.playerToGame[p];
      var games := s.activeGames - {id};
      var map' := s.playerToGame - {p};
      // The game is already gone, so the lookup of its record yields no partner.
      match Lookup(games, id)
      case Some(rec) => s.(activeGames := games, playerToGame := map' - {Partner(rec, p)})
      case None => s.(activeGames := games, playerToGame := map')
    else
      s
  }

  /** `remove_player_from_game` as its comment intends: the game goes, and so do the
      mappings of both of its players. */
  function RemovePlayerFromGame(s: System, p: PlayerId): (r: System)
    ensures GetPlayerGame(s, p).None? ==> r == s
    ensures GetPlayerGame(s, p).Some? ==>
              var rec := GetPlayerGame(s, p).value;
              && s.playerToGame[p] !in r.activeGames
              && r.activeGames == s.activeGames - {s.playerToGame[p]}
              && r.playerToGame == s.playerToGame - {p, Partner(rec, p)}
              && r.queue == s.queue && r.counter == s.counter
  {
    if p in s.playerToGame && s.playerToGame[p] != "" && s.playerToGame[p] in s.activeGames then
      var id := s.playerToGame[p];
      var other := Partner(s.activeGames[id], p);
      s.(activeGames := s.activeGames - {id}, playerToGame := s.playerToGame - {p, other})
    else
      s
  }

  /** `get_queue_status`: the 1-based position of `p`'s first entry and the queue
      size, or not queued. */
  method GetQueueStatus(s: System, p: PlayerId) returns (r: QueueStatus)
    ensures r.NotQueued? <==> !InQueue(s.queue, p)
    ensures r.Queued? ==>
              && 1 <= r.position <= |s.queue|
              && s.queue[r.position - 1].playerId == p
              && (forall k :: 0 <= k < r.position - 1 ==> s.queue[k].playerId != p)
              && r.queueSize == |s.queue|
  {
    var i := 0;
    while i < |s.queue|
      invariant 0 <= i <= |s.queue|
      invariant forall k :: 0 <= k < i ==> s.queue[k].playerId != p
    {
      if s.queue[i].playerId == p {
        return Queued(i + 1, |s.queue|);
      }
      i := i + 1;
    }
    return NotQueued;
  }

  // ---------------------------------------------------------------------------
  // Preservation

  /** Creating a game with the next id keeps every id in use issued. */
  lemma CreateKeepsIssued(s: System, first: Entry, second: Entry)
    requires IdsIssued(s)
    ensures IdsIssued(CreateGame(s, first, second).0)
  {
    var c := CreateGame(s, first, second);
    var t := c.0;
    forall g | g in t.activeGames
      ensures IssuedId(t, g)
    {
      if g != c.1 {
        var k :| 1 <= k <= s.counter && g == GameName(k);
      }
    }
    forall q | q in t.playerToGame
      ensures IssuedId(t, t.playerToGame[q])
    {
      if q != first.playerId && q != second.playerId {
        var k :| 1 <= k <= s.counter && s.playerToGame[q] == GameName(k);
      }
    }
  }

  /** Pairing two distinct players who are in no game, under a new id, keeps the
      games and the mappings in step. */
  lemma CreateKeepsMapped(s: System, first: Entry, second: Entry)
    requires GamesMapped(s)
    requires first.playerId != second.playerId
    requires first.playerId !in s.playerToGame && second.playerId !in s.playerToGame
    requires GameName(s.counter + 1) !in s.activeGames
    requires forall q :: q in s.playerToGame ==> s.playerToGame[q] != GameName(s.counter + 1)
    ensures GamesMapped(CreateGame(s, first, second).0)
  {
    var c := CreateGame(s, first, second);
    var t := c.0;
    forall g | g in t.activeGames && g != c.1
      ensures t.playerToGame[t.activeGames[g].player1] == g
      ensures t.playerToGame[t.activeGames[g].player2] == g
    {
      var rec := s.activeGames[g];
      assert rec.player1 != first.playerId && rec.player1 != second.playerId;
      assert rec.player2 != first.playerId && rec.player2 != second.playerId;
    }
    forall q | q in t.playerToGame && t.playerToGame[q] in t.activeGames
      ensures q == t.activeGames[t.playerToGame[q]].player1 || q == t.activeGames[t.playerToGame[q]].player2
    {
      if q != first.playerId && q != second.playerId {
        assert s.playerToGame[q] != c.1;
      }
    }
  }

  /** `add_player_to_queue` keeps the invariant. */
  lemma AddKeepsValid(s: System, p: PlayerId, handData: seq<int>)
    requires Valid(s)
    ensures Valid(AddPlayerToQueue(s, p, handData).sys)
  {
    var r := AddPlayerToQueue(s, p, handData);
    if r.ok && |s.queue| == 1 {
      PairingKeepsValid(s, s.queue[0], Entry(p, handData));
    }
  }

  /** Pairing the waiting player with a newcomer who is in no game keeps the invariant. */
  lemma PairingKeepsValid(s: System, first: Entry, second: Entry)
    requires Valid(s)
    requires s.queue == [first]
    requires second.playerId !in s.playerToGame && first.playerId != second.playerId
    ensures Valid(CreateGame(s.(queue := []), first, second).0)
  {
    NextIdFresh(s);
    assert s.queue[0] == first;
    var base := s.(queue := []);
    CreateKeepsIssued(base, first, second);
    CreateKeepsMapped(base, first, second);
  }

  lemma AddKeepsClean(s: System, p: PlayerId, handData: seq<int>)
    requires Valid(s) && Clean(s)
    ensures Clean(AddPlayerToQueue(s, p, handData).sys)
  {
    var r := AddPlayerToQueue(s, p, handData);
    if r.ok && |s.queue| == 1 {
      var c := CreateGame(s.(queue := []), s.queue[0], Entry(p, handData));
      assert r.sys == c.0;
    }
  }

  /** `remove_player_from_queue` keeps the invariant and cleanliness. */
  lemma RemoveFromQueueKeepsValid(s: System, p: PlayerId)
    requires Valid(s) && Clean(s)
    ensures Valid(RemovePlayerFromQueue(s, p)) && Clean(RemovePlayerFromQueue(s, p))
  {
    var r := RemovePlayerFromQueue(s, p);
    forall i | 0 <= i < |r.queue|
      ensures r.queue[i].playerId !in r.playerToGame
    {
      var e := r.queue[i];
      assert e in multiset(r.queue);
      if e.playerId != p {
        assert e in multiset(s.queue);
        var j :| 0 <= j < |s.queue| && s.queue[j] == e;
      }
    }
  }

  /** The corrected removal keeps the invariant. */
  lemma RemoveFromGameKeepsValid(s: System, p: PlayerId)
    requires Valid(s)
    ensures Valid(RemovePlayerFromGame(s, p))
  {
    var r := RemovePlayerFromGame(s, p);
    if GetPlayerGame(s, p).Some? {
      var id := s.playerToGame[p];
      var rec := s.activeGames[id];
      assert r.activeGames == s.activeGames - {id};
      assert r.playerToGame == s.playerToGame - {p, Partner(rec, p)};
      forall g | g in r.activeGames
        ensures r.activeGames[g].player1 in r.playerToGame
        ensures r.activeGames[g].player2 in r.playerToGame
      {
        var other := s.activeGames[g];
        assert s.playerToGame[other.player1] == g && s.playerToGame[other.player2] == g;
      }
      assert IdsIssued(r) by {
        assert forall g :: g in r.activeGames ==> IssuedId(s, g);
        assert forall q :: q in r.playerToGame ==> IssuedId(s, r.playerToGame[q]);
      }
    }
  }

  /** The removal as written keeps the invariant too; what it loses is cleanliness. */
  lemma RemoveAsWrittenKeepsValid(s: System, p: PlayerId)
    requires Valid(s)
    ensures Valid(RemovePlayerFromGameAsWritten(s, p))
  {
    var r := RemovePlayerFromGameAsWritten(s, p);
    if GetPlayerGame(s, p).Some? {
      var id := s.playerToGame[p];
      assert r.activeGames == s.activeGames - {id};
      forall g | g in r.activeGames
        ensures r.activeGames[g].player1 in r.playerToGame
        ensures r.activeGames[g].player2 in r.playerToGame
      {
        var other := s.activeGames[g];
        assert s.playerToGame[other.player1] == g && s.playerToGame[other.player2] == g;
      }
      assert IdsIssued(r) by {
        assert forall g :: g in r.activeGames ==> IssuedId(s, g);
        assert forall q :: q in r.playerToGame ==> IssuedId(s, r.playerToGame[q]);
      }
    }
  }

  /** The corrected removal also keeps the mappings clean. */
  lemma RemoveFromGameKeepsClean(s: System, p: PlayerId)
    requires Valid(s) && Clean(s)
    ensures Clean(RemovePlayerFromGame(s, p))
  {
    var r := RemovePlayerFromGame(s, p);
    if GetPlayerGame(s, p).Some? {
      var id := s.playerToGame[p];
      var rec := s.activeGames[id];
      forall q | q in r.playerToGame
        ensures r.playerToGame[q] in r.activeGames
      {
        assert s.playerToGame[q] in s.activeGames;
        assert q == rec.player1 || q == rec.player2 ==> q == p || q == Partner(rec, p);
      }
    }
  }

  // ---------------------------------------------------------------------------
  // The partner left behind

  /** After either version of the removal, neither player of the removed game is in a
      game any more, as `get_player_game` sees it. */
  lemma RemovalEndsGameForBoth(s: System, p: PlayerId)
    requires Valid(s)
    requires GetPlayerGame(s, p).Some?
    ensures var other := Partner(GetPlayerGame(s, p).value, p);
            && GetPlayerGame(RemovePlayerFromGameAsWritten(s, p), p).None?
            && GetPlayerGame(RemovePlayerFromGameAsWritten(s, p), other).None?
            && GetPlayerGame(RemovePlayerFromGame(s, p), p).None?
            && GetPlayerGame(RemovePlayerFromGame(s, p), other).None?
  {
    var id := s.playerToGame[p];
    var rec := s.activeGames[id];
  }

  /** Two players paired into `game_1`; player "a" then leaves the game. */
  function PairedThenLeft(remove: (System, PlayerId) -> System): System {
    var s1 := AddPlayerToQueue(Initial(), "a", []).sys;
    var s2 := AddPlayerToQueue(s1, "b", []).sys;
    remove(s2, "a")
  }

  /** As written, the partner "b" keeps a mapping to a game that no longer exists, so
      the state is no longer clean and "b" can never queue again. */
  lemma PartnerLeftBehind()
    ensures var s := PairedThenLeft(RemovePlayerFromGameAsWritten);
            && "b" in s.playerToGame
            && !Clean(s)
            && AddPlayerToQueue(s, "b", []) == Reply(false, AlreadyInGame, s)
  {
    var s1 := AddPlayerToQueue(Initial(), "a", []).sys;
    assert s1.queue == [Entry("a", [])];
    var s2 := AddPlayerToQueue(s1, "b", []).sys;
    assert !InQueue(s1.queue, "b");
    assert s2.playerToGame == map["a" := GameName(1), "b" := GameName(1)];
    var s := RemovePlayerFromGameAsWritten(s2, "a");
    assert s.playerToGame == map["b" := GameName(1)];
    assert GameName(1) !in s.activeGames;
  }

  /** With the correction the partner is free to queue again. */
  lemma PartnerFreed()
    ensures var s := PairedThenLeft(RemovePlayerFromGame);
            && Clean(s)
            && AddPlayerToQueue(s, "b", []).ok
  {
    var s1 := AddPlayerToQueue(Initial(), "a", []).sys;
    assert s1.queue == [Entry("a", [])];
    var s2 := AddPlayerToQueue(s1, "b", []).sys;
    assert !InQueue(s1.queue, "b");
    assert s2.playerToGame == map["a" := GameName(1), "b" := GameName(1)];
    var s := RemovePlayerFromGame(s2, "a");
    assert s.playerToGame == map[];
  }
}

=== FILE: options.dfy ===
/** Optional values: the model's counterpart of a Python value that may be None
    (a missing dictionary entry, an absent ability effect, an undecided winner). */
module Options {

  datatype Option<+T> = None | Some(value: T) {

    /** The carried value, or `default` when there is none (Python's `dict.get(k, default)`). */
    function GetOr(default: T): T {
      match this
      case Some(v) => v
      case None => default
    }
  }
}

=== FILE: seqs.dfy ===
/** Sequence helpers: sums of an integer-valued function over a sequence (with the
    facts the power calculations rely on), reversal and removal at an index. */
module Seqs {

  /** No element of `s` occurs twice. */
  predicate NoDuplicates<T(==)>(s: seq<T>) {
    forall i, j :: 0 <= i < j < |s| ==> s[i] != s[j]
  }

  /** A sequence repeats nothing exactly when its multiset counts every element at most once. */
  lemma {:induction false} NoDuplicatesCounts<T>(s: seq<T>)
    ensures NoDuplicates(s) <==> forall x :: multiset(s)[x] <= 1
    decreases |s|
  {
    if s != [] {
      var init := s[..|s| - 1];
      var last := s[|s| - 1];
      NoDuplicatesCounts(init);
      assert s == init + [last];
      assert multiset(s) == multiset(init) + multiset{last};
      if NoDuplicates(s) {
        assert NoDuplicates(init) by {
          forall i, j | 0 <= i < j < |init|
            ensures init[i] != init[j]
          {
            assert init[i] == s[i] && init[j] == s[j];
          }
        }
        assert last !in init by {
          forall i | 0 <= i < |init|
            ensures init[i] != last
          {
            assert init[i] == s[i];
          }
        }
      }
      if forall x :: multiset(s)[x] <= 1 {
        forall x
          ensures multiset(init)[x] <= 1
        {
          assert multiset(s)[x] == multiset(init)[x] + multiset{last}[x];
        }
        assert multiset(init)[last] == 0 by {
          assert multiset(s)[last] == multiset(init)[last] + 1;
        }
        forall i, j | 0 <= i < j < |s|
          ensures s[i] != s[j]
        {
          if j == |s| - 1 {
            assert s[i] == init[i] && init[i] in multiset(init);
          } else {
            assert s[i] == init[i] && s[j] == init[j];
          }
        }
      }
    }
  }

  /** Part of a sequence without repeats, taken as a multiset, has no repeats either. */
  lemma NoDuplicatesBelow<T>(a: seq<T>, b: seq<T>)
    requires multiset(a) <= multiset(b) && NoDuplicates(b)
    ensures NoDuplicates(a)
  {
    NoDuplicatesCounts(a);
    NoDuplicatesCounts(b);
  }

  /** The sum of `f` over the elements of `s`, accumulated left to right. */
  function Sum<T>(s: seq<T>, f: T -> int): int
    decreases |s|
  {
    if s == [] then 0 else Sum(s[..|s| - 1], f) + f(s[|s| - 1])
  }

  /** The sum over one element is that element's value. */
  lemma SumSingle<T>(x: T, f: T -> int)
    ensures Sum([x], f) == f(x)
  {
    assert [x][..0] == [];
  }

  lemma {:induction false} SumAppend<T>(a: seq<T>, b: seq<T>, f: T -> int)
    ensures Sum(a + b, f) == Sum(a, f) + Sum(b, f)
    decreases |b|
  {
    if b == [] {
      assert a + b == a;
    } else {
      var b' := b[..|b| - 1];
      assert (a + b)[..|a + b| - 1] == a + b';
      SumAppend(a, b', f);
    }
  }

  /** Two functions that agree on every element of `s` have the same sum over it. */
  lemma {:induction false} SumPointwise<T>(s: seq<T>, f: T -> int, g: T -> int)
    requires forall i :: 0 <= i < |s| ==> f(s[i]) == g(s[i])
    ensures Sum(s, f) == Sum(s, g)
    decreases |s|
  {
    if s != [] {
      SumPointwise(s[..|s| - 1], f, g);
    }
  }

  /** Appending `x` adds its value to the sum. */
  lemma SumSnoc<T>(s: seq<T>, x: T, f: T -> int)
    ensures Sum(s + [x], f) == Sum(s, f) + f(x)
  {
    assert (s + [x])[..|s|] == s;
  }

  /** Taking the element at `j` out of `s` takes its value out of the sum. */
  lemma {:induction false} SumRemove<T>(s: seq<T>, j: int, f: T -> int)
    requires 0 <= j < |s|
    ensures Sum(s, f) == Sum(s[..j] + s[j + 1..], f) + f(s[j])
  {
    var pre, x, post := s[..j], s[j], s[j + 1..];
    assert s == (pre + [x]) + post;
    SumAppend(pre + [x], post, f);
    SumSnoc(pre, x, f);
    SumAppend(pre, post, f);
  }

  /** Taking the element at `j` out of `s` takes one copy of it out of the multiset. */
  lemma MultisetRemove<T>(s: seq<T>, j: int)
    requires 0 <= j < |s|
    ensures multiset(s[..j] + s[j + 1..]) == multiset(s) - multiset{s[j]}
  {
    assert s == s[..j] + [s[j]] + s[j + 1..];
    assert multiset(s) == multiset(s[..j]) + multiset{s[j]} + multiset(s[j + 1..]);
  }

  /** A sum does not depend on the order of the elements it is taken over. */
  lemma {:induction false} SumPermutation<T>(a: seq<T>, b: seq<T>, f: T -> int)
    requires multiset(a) == multiset(b)
    ensures Sum(a, f) == Sum(b, f)
    decreases |a|
  {
    if a == [] {
      assert |b| == |multiset(b)| == 0;
    } else {
      var x := a[|a| - 1];
      var a' := a[..|a| - 1];
      assert x in multiset(b) by {
        assert a == a' + [x];
      }
      var j :| 0 <= j < |b| && b[j] == x;
      var b' := b[..j] + b[j + 1..];
      MultisetRemove(a, |a| - 1);
      MultisetRemove(b, j);
      assert a[..|a| - 1] + a[|a|..] == a';
      SumPermutation(a', b', f);
      SumRemove(b, j, f);
    }
  }

  /** `s` back to front: the order in which repeated pops from the end take its elements. */
  function Reverse<T>(s: seq<T>): seq<T>
    decreases |s|
  {
    if s == [] then [] else [s[|s| - 1]] + Reverse(s[..|s| - 1])
  }

  /** Reversing `s` followed by `x` puts `x` first. */
  lemma ReverseSnoc<T>(s: seq<T>, x: T)
    ensures Reverse(s + [x]) == [x] + Reverse(s)
  {
    assert (s + [x])[..|s|] == s;
  }

  /** Reversing keeps the elements and their number. */
  lemma {:induction false} ReverseElements<T>(s: seq<T>)
    ensures |Reverse(s)| == |s|
    ensures multiset(Reverse(s)) == multiset(s)
    decreases |s|
  {
    if s != [] {
      ReverseElements(s[..|s| - 1]);
      assert s == s[..|s| - 1] + [s[|s| - 1]];
    }
  }

  /** `s` without its element at index `i` (Python's `list.pop(i)`). */
  function RemoveAt<T>(s: seq<T>, i: int): (r: seq<T>)
    requires 0 <= i < |s|
    ensures |r| == |s| - 1
    ensures forall k :: 0 <= k < i ==> r[k] == s[k]
    ensures forall k :: i <= k < |r| ==> r[k] == s[k + 1]
    ensures multiset(r) + multiset{s[i]} == multiset(s)
  {
    assert s == s[..i] + [s[i]] + s[i + 1..];
    s[..i] + s[i + 1..]
  }

  /** Strictly decreasing: the order `sorted(..., reverse=True)` gives distinct indices. */
  predicate Descending(s: seq<int>) {
    forall i, j :: 0 <= i < j < |s| ==> s[i] > s[j]
  }

  /** The elements of `s` kept in order, except those at an index in `chosen`. */
  function Without<T>(s: seq<T>, chosen: set<int>): seq<T>
    decreases |s|
  {
    if s == [] then []
    else Without(s[..|s| - 1], chosen) + (if |s| - 1 in chosen then [] else [s[|s| - 1]])
  }

  /** Popping the indices of `order` one after the other, largest first: each pop
      removes exactly one element, and no element is created. */
  function PopAll<T>(s: seq<T>, order: seq<int>): (r: seq<T>)
    requires Descending(order)
    requires forall k :: 0 <= k < |order| ==> 0 <= order[k] < |s|
    ensures |r| == |s| - |order|
    ensures multiset(r) <= multiset(s)
    decreases |order|
  {
    if order == [] then s else PopAll(RemoveAt(s, order[0]), order[1..])
  }

  /** Popping never touches an element equal to `x` when no popped index holds one. */
  lemma {:induction false} PopAllSpares<T>(s: seq<T>, order: seq<int>, x: T)
    requires Descending(order)
    requires forall k :: 0 <= k < |order| ==> 0 <= order[k] < |s|
    requires forall k :: 0 <= k < |order| ==> s[order[k]] != x
    ensures multiset(PopAll(s, order))[x] == multiset(s)[x]
    decreases |order|
  {
    if order != [] {
      var s' := RemoveAt(s, order[0]);
      forall k | 1 <= k < |order|
        ensures s'[order[k]] == s[order[k]]
      {
        assert order[0] > order[k];
      }
      PopAllSpares(s', order[1..], x);
    }
  }

  /** Only the chosen indices that exist in `s` matter. */
  lemma {:induction false} WithoutInRange<T>(s: seq<T>, a: set<int>, b: set<int>)
    requires forall i :: 0 <= i < |s| ==> (i in a <==> i in b)
    ensures Without(s, a) == Without(s, b)
    decreases |s|
  {
    if s != [] {
      WithoutInRange(s[..|s| - 1], a, b);
    }
  }

  /** Removing index `j` first and then the smaller indices of `chosen` is removing
      all of them at once. */
  lemma {:induction false} WithoutRemoveAt<T>(s: seq<T>, j: int, chosen: set<int>)
    requires 0 <= j < |s|
    requires forall x :: x in chosen ==> x < j
    ensures Without(RemoveAt(s, j), chosen) == Without(s, chosen + {j})
    decreases |s|, 1
  {
    if j == |s| - 1 {
      WithoutRemoveLast(s, chosen);
    } else {
      assert s == s[..|s| - 1] + [s[|s| - 1]];
      WithoutRemoveBeforeLast(s[..|s| - 1], s[|s| - 1], j, chosen);
    }
  }

  /** The case of `WithoutRemoveAt` where the removed index is not the last one. */
  lemma {:induction false} WithoutRemoveBeforeLast<T>(init: seq<T>, last: T, j: int, chosen: set<int>)
    requires 0 <= j < |init|
    requires forall x :: x in chosen ==> x < j
    ensures Without(RemoveAt(init + [last], j), chosen) == Without(init + [last], chosen + {j})
    decreases |init| + 1, 0
  {
    RemoveAtSnoc(init, j, last);
    WithoutRemoveAt(init, j, chosen);
    WithoutSnoc(RemoveAt(init, j), last, chosen);
    WithoutSnoc(init, last, chosen + {j});
  }

  /** Removing the last index is choosing it. */
  lemma WithoutRemoveLast<T>(s: seq<T>, chosen: set<int>)
    requires s != []
    requires forall x :: x in chosen ==> x < |s| - 1
    ensures Without(RemoveAt(s, |s| - 1), chosen) == Without(s, chosen + {|s| - 1})
  {
    var init, last := s[..|s| - 1], s[|s| - 1];
    assert s == init + [last];
    assert RemoveAt(s, |s| - 1) == init;
    WithoutSnoc(init, last, chosen + {|s| - 1});
    WithoutInRange(init, chosen, chosen + {|s| - 1});
  }

  /** Appending `x` at index `|t|` keeps it unless that index is chosen. */
  lemma WithoutSnoc<T>(t: seq<T>, x: T, chosen: set<int>)
    ensures Without(t + [x], chosen) == Without(t, chosen) + (if |t| in chosen then [] else [x])
  {
    assert (t + [x])[..|t|] == t;
  }

  /** Removing an index before the last element keeps that element last. */
  lemma RemoveAtSnoc<T>(t: seq<T>, j: int, x: T)
    requires 0 <= j < |t|
    ensures RemoveAt(t + [x], j) == RemoveAt(t, j) + [x]
  {
    assert (t + [x])[..j] == t[..j];
    assert (t + [x])[j + 1..] == t[j + 1..] + [x];
  }

  /** The pop loop keeps exactly the elements at the indices it does not pop, in their
      original order. */
  lemma {:induction false} PopAllKeepsOrder<T>(s: seq<T>, order: seq<int>)
    requires Descending(order)
    requires forall k :: 0 <= k < |order| ==> 0 <= order[k] < |s|
    ensures PopAll(s, order) == Without(s, set x | x in order)
    decreases |order|
  {
    if order == [] {
      assert (set x | x in order) == {};
      WithoutNone(s);
    } else {
      var rest := order[1..];
      DescendingTail(order);
      PopAllKeepsOrder(RemoveAt(s, order[0]), rest);
      WithoutRemoveAt(s, order[0], set x | x in rest);
      IndexSetCons(order);
    }
  }

  /** After the largest index of a descending order, the rest is descending and smaller. */
  lemma DescendingTail(order: seq<int>)
    requires order != [] && Descending(order)
    ensures Descending(order[1..])
    ensures forall k :: 0 <= k < |order| - 1 ==> order[1..][k] < order[0]
    ensures forall x :: x in order[1..] ==> x < order[0]
  {
  }

  /** The indices of an order are its first index and those of the rest. */
  lemma IndexSetCons(order: seq<int>)
    requires order != []
    ensures (set x | x in order) == (set x | x in order[1..]) + {order[0]}
  {
    assert order == [order[0]] + order[1..];
  }

  /** Choosing nothing keeps everything. */
  lemma {:induction false} WithoutNone<T>(s: seq<T>)
    ensures Without(s, {}) == s
    decreases |s|
  {
    if s != [] {
      WithoutNone(s[..|s| - 1]);
    }
  }
}

=== FILE: xp.dfy ===
/** The level table of `xp_system.py` (`XPSystem`): levels from experience points,
    the points still needed for the next level, and the card rewards a player has
    earned but not yet unlocked. */
module Xp {
  import opened Seqs
  import opened Cards

  const MaxLevel := 10

  /** `LEVEL_XP_REQUIREMENTS`: entry `i` is the experience needed for level `i + 1`. */
  const LevelXpRequirements: seq<int> := [0, 100, 250, 450, 700, 1000, 1350, 1750, 2200, 2700]

  /** `LEVEL_REWARDS`: the card ids unlocked on reaching each level. */
  const LevelRewards: map<int, seq<int>> := map[
    1 := [], 2 := [1], 3 := [4], 4 := [2], 5 := [7],
    6 := [5], 7 := [6], 8 := [10], 9 := [11], 10 := [3]
  ]

  /** `XP_SOURCES`: experience granted per kind of event. */
  const XpSources: map<string, int> := map[
    "game_win" := 100,
    "game_loss" := 100,
    "first_win_of_day" := 25,
    "card_played" := 0,
    "location_captured" := 0,
    "perfect_game" := 0
  ]

  /** The experience a level requires. */
  function Requirement(level: int): int
    requires 1 <= level <= MaxLevel
  {
    LevelXpRequirements[level - 1]
  }

  /** The table starts at 0 for level 1 and rises strictly with the level. */
  lemma RequirementsIncrease()
    ensures |LevelXpRequirements| == MaxLevel
    ensures Requirement(1) == 0
    ensures forall a, b :: 1 <= a < b <= MaxLevel ==> Requirement(a) < Requirement(b)
  {
  }

  /** The loop of `get_level_from_xp` from `level` on, having settled on `current`:
      take each level whose requirement is met, and stop at the first that is not. */
  function Scan(xp: int, level: int, current: int): (r: int)
    requires 1 <= level <= MaxLevel + 1
    requires 1 <= current <= MaxLevel
    requires level == 1 ==> current == 1
    requires level > 1 ==> current == level - 1 && Requirement(current) <= xp
    ensures current <= r <= MaxLevel
    ensures r > 1 ==> Requirement(r) <= xp
    ensures forall l :: level <= l <= MaxLevel && Requirement(l) <= xp ==> l <= r
    decreases MaxLevel + 1 - level
  {
    RequirementsIncrease();
    if level > MaxLevel then current
    else if xp >= Requirement(level) then Scan(xp, level + 1, level)
    else current
  }

  /** `get_level_from_xp`: the largest level whose requirement `xp` meets, or 1 when
      it meets none (a negative `xp`). */
  function LevelFromXp(xp: int): (level: int)
    ensures 1 <= level <= MaxLevel
    ensures forall l :: 1 <= l <= MaxLevel ==> (Requirement(l) <= xp <==> l <= level && 0 <= xp)
    ensures xp < 0 ==> level == 1
  {
    RequirementsIncrease();
    Scan(xp, 1, 1)
  }

  /** More experience never means a lower level. */
  lemma LevelMonotone(x: int, y: int)
    requires x <= y
    ensures LevelFromXp(x) <= LevelFromXp(y)
  {
    var lx := LevelFromXp(x);
    if x >= 0 {
      assert Requirement(lx) <= x;
    }
  }

  /** 100 points reach level 2 and 1200 points level 6. */
  lemma LevelExamples()
    ensures LevelFromXp(100) == 2
    ensures LevelFromXp(1200) == 6
    ensures LevelFromXp(0) == 1 && LevelFromXp(99) == 1
    ensures LevelFromXp(2700) == MaxLevel
  {
    assert Requirement(2) <= 100 && Requirement(3) > 100;
    assert Requirement(6) <= 1200 && Requirement(7) > 1200;
    assert Requirement(1) <= 99 && Requirement(2) > 99;
    assert Requirement(MaxLevel) <= 2700;
  }

  /** `get_xp_for_next_level`: how far `xp` is from the next level's requirement, or 0
      at the top level. */
  function XpForNextLevel(xp: int): (r: int)
    ensures LevelFromXp(xp) < MaxLevel ==> r == Requirement(LevelFromXp(xp) + 1) - xp && r > 0
    ensures LevelFromXp(xp) == MaxLevel ==> r == 0
  {
    var next := LevelFromXp(xp) + 1;
    if next <= MaxLevel then Requirement(next) - xp else 0
  }

  /** Gaining exactly the points `XpForNextLevel` reports reaches the next level, and
      one point fewer does not (for a non-negative `xp` below the top level). */
  lemma NextLevelExact(xp: int)
    requires 0 <= xp
    requires LevelFromXp(xp) < MaxLevel
    ensures LevelFromXp(xp + XpForNextLevel(xp)) == LevelFromXp(xp) + 1
    ensures LevelFromXp(xp + XpForNextLevel(xp) - 1) == LevelFromXp(xp)
  {
    var level := LevelFromXp(xp);
    var target := xp + XpForNextLevel(xp);
    RequirementsIncrease();
    assert target == Requirement(level + 1);
    if level + 2 <= MaxLevel {
      assert Requirement(level + 2) > target;
    }
    assert Requirement(level) <= xp <= target - 1;
  }

  /** `get_rewards_for_level`: the level's reward card ids, none for an unknown level. */
  function RewardsForLevel(level: int): (r: seq<int>)
    ensures level in LevelRewards ==> r == LevelRewards[level]
    ensures level !in LevelRewards ==> r == []
  {
    if level in LevelRewards then LevelRewards[level] else []
  }

  /** The reward table covers exactly the levels 1 to 10, one card per level from
      level 2 on, and no card is given twice. */
  lemma RewardsTable()
    ensures forall l :: l in LevelRewards <==> 1 <= l <= MaxLevel
    ensures RewardsForLevel(1) == []
    ensures forall l :: 2 <= l <= MaxLevel ==> |RewardsForLevel(l)| == 1
    ensures forall a, b :: 2 <= a < b <= MaxLevel ==> RewardsForLevel(a)[0] != RewardsForLevel(b)[0]
  {
  }

  /** No level's reward list names a card twice. */
  lemma RewardListsNoDuplicates(l: int)
    ensures NoDuplicates(RewardsForLevel(l))
  {
    RewardsTable();
    if l !in LevelRewards {
      assert RewardsForLevel(l) == [];
    }
  }

  /** Some card of the catalog has id `id`. */
  predicate InCatalog(id: int) {
    exists i :: 0 <= i < |Characters| && Characters[i].id == id
  }

  /** Every level reward names a catalog card except that of level 9, whose id 11 is
      not in the catalog. */
  lemma RewardCards()
    ensures forall l :: 2 <= l <= MaxLevel ==> (InCatalog(RewardsForLevel(l)[0]) <==> l != 9)
  {
    CatalogIds();
    RewardsTable();
    forall l | 2 <= l <= MaxLevel
      ensures InCatalog(RewardsForLevel(l)[0]) <==> l != 9
    {
      var id := RewardsForLevel(l)[0];
      if l != 9 {
        assert 1 <= id <= 10;
        assert Characters[id - 1].id == id;
      } else {
        assert id == 11;
      }
    }
  }

  /** `get_xp_source_amount`: the points an event is worth, 0 for an unknown event. */
  function XpSourceAmount(source: string): (r: int)
    ensures source in XpSources ==> r == XpSources[source]
    ensures source !in XpSources ==> r == 0
    ensures r >= 0
  {
    if source in XpSources then XpSources[source] else 0
  }

  /** A pending reward: a card id and the level that grants it. */
  datatype Reward = Reward(level: int, cardId: int)

  /** The rewards of `level` among `ids` whose card is not unlocked yet, in list order. */
  function Unclaimed(level: int, ids: seq<int>, unlocked: seq<int>): (r: seq<Reward>)
    ensures forall k :: 0 <= k < |r| ==> r[k].level == level && r[k].cardId in ids && r[k].cardId !in unlocked
    ensures forall id :: id in ids && id !in unlocked ==> Reward(level, id) in r
    decreases |ids|
  {
    if ids == [] then []
    else
      var rest := Unclaimed(level, ids[1..], unlocked);
      if ids[0] !in unlocked then [Reward(level, ids[0])] + rest else rest
  }

  /** A list naming no card twice yields no reward twice. */
  lemma {:induction false} UnclaimedNoDuplicates(level: int, ids: seq<int>, unlocked: seq<int>)
    requires NoDuplicates(ids)
    ensures NoDuplicates(Unclaimed(level, ids, unlocked))
    decreases |ids|
  {
    if ids != [] {
      var rest := Unclaimed(level, ids[1..], unlocked);
      UnclaimedNoDuplicates(level, ids[1..], unlocked);
      if ids[0] !in unlocked {
        var r := [Reward(level, ids[0])] + rest;
        forall j, k | 0 <= j < k < |r|
          ensures r[j] != r[k]
        {
          if j > 0 {
            assert r[j] == rest[j - 1] && r[k] == rest[k - 1];
          } else {
            assert r[k].cardId in ids[1..];
          }
        }
      }
    }
  }

  /** Every entry of `r` is a reward of a level from `from` to `top` whose card is
      not unlocked. */
  predicate Sound(r: seq<Reward>, from: int, top: int, unlocked: seq<int>) {
    forall k :: 0 <= k < |r| ==>
      && from <= r[k].level <= top
      && r[k].cardId in RewardsForLevel(r[k].level)
      && r[k].cardId !in unlocked
  }

  /** Every reward of a level from `from` to `top` whose card is not unlocked is in `r`. */
  predicate Complete(r: seq<Reward>, from: int, top: int, unlocked: seq<int>) {
    forall l, id {:trigger Reward(l, id) in r} ::
      from <= l <= top && id in RewardsForLevel(l) && id !in unlocked ==> Reward(l, id) in r
  }

  /** Entries come lowest level first. */
  predicate LevelOrdered(r: seq<Reward>) {
    forall j, k :: 0 <= j < k < |r| ==> r[j].level <= r[k].level
  }

  /** The rewards of level `from` followed by those of the higher levels up to `top`
      keep all three properties. */
  lemma JoinLevels(here: seq<Reward>, rest: seq<Reward>, from: int, top: int, unlocked: seq<int>)
    requires from <= top
    requires forall k :: 0 <= k < |here| ==>
               here[k].level == from && here[k].cardId in RewardsForLevel(from) && here[k].cardId !in unlocked
    requires forall id :: id in RewardsForLevel(from) && id !in unlocked ==> Reward(from, id) in here
    requires Sound(rest, from + 1, top, unlocked) && Complete(rest, from + 1, top, unlocked)
    requires LevelOrdered(rest)
    ensures Sound(here + rest, from, top, unlocked)
    ensures Complete(here + rest, from, top, unlocked)
    ensures LevelOrdered(here + rest)
  {
    var r := here + rest;
    forall k | 0 <= k < |r|
      ensures from <= r[k].level <= top
      ensures r[k].cardId in RewardsForLevel(r[k].level) && r[k].cardId !in unlocked
    {
      if k < |here| {
        assert r[k] == here[k];
      } else {
        assert r[k] == rest[k - |here|];
      }
    }
    forall j, k | 0 <= j < k < |r|
      ensures r[j].level <= r[k].level
    {
      if k < |here| {
        assert r[j] == here[j] && r[k] == here[k];
      } else if j >= |here| {
        assert r[j] == rest[j - |here|] && r[k] == rest[k - |here|];
      } else {
        assert r[j] == here[j] && r[k] == rest[k - |here|];
      }
    }
  }

  /** The loop of `get_pending_rewards` over the levels `from` to `top`. */
  function PendingFrom(from: int, top: int, unlocked: seq<int>): (r: seq<Reward>)
    ensures Sound(r, from, top, unlocked)
    ensures Complete(r, from, top, unlocked)
    ensures LevelOrdered(r)
    decreases top - from + 1
  {
    if from > top then []
    else
      var here := Unclaimed(from, RewardsForLevel(from), unlocked);
      var rest := PendingFrom(from + 1, top, unlocked);
      JoinLevels(here, rest, from, top, unlocked);
      here + rest
  }

  /** Rewards of one level followed by rewards of higher levels repeat nothing when
      neither part does. */
  lemma JoinNoDuplicates(here: seq<Reward>, rest: seq<Reward>, from: int)
    requires forall k :: 0 <= k < |here| ==> here[k].level == from
    requires forall k :: 0 <= k < |rest| ==> rest[k].level > from
    requires NoDuplicates(here) && NoDuplicates(rest)
    ensures NoDuplicates(here + rest)
  {
    var r := here + rest;
    forall j, k | 0 <= j < k < |r|
      ensures r[j] != r[k]
    {
      if k < |here| {
        assert r[j] == here[j] && r[k] == here[k];
      } else if j >= |here| {
        assert r[j] == rest[j - |here|] && r[k] == rest[k - |here|];
      } else {
        assert r[j] == here[j] && r[k] == rest[k - |here|];
      }
    }
  }

  /** The pending-rewards loop offers no reward twice. */
  lemma {:induction false} PendingFromNoDuplicates(from: int, top: int, unlocked: seq<int>)
    ensures NoDuplicates(PendingFrom(from, top, unlocked))
    decreases top - from + 1
  {
    if from <= top {
      var here := Unclaimed(from, RewardsForLevel(from), unlocked);
      var rest := PendingFrom(from + 1, top, unlocked);
      PendingFromNoDuplicates(from + 1, top, unlocked);
      RewardListsNoDuplicates(from);
      UnclaimedNoDuplicates(from, RewardsForLevel(from), unlocked);
      JoinNoDuplicates(here, rest, from);
    }
  }

  /** `get_pending_rewards`: every reward of the levels up to the player's level whose
      card is not unlocked, lowest level first. */
  function PendingRewards(xp: int, unlocked: seq<int>): (r: seq<Reward>)
    ensures forall k :: 0 <= k < |r| ==>
              && 1 <= r[k].level <= LevelFromXp(xp)
              && r[k].cardId in RewardsForLevel(r[k].level)
              && r[k].cardId !in unlocked
    ensures forall l, id {:trigger Reward(l, id) in r} ::
              1 <= l <= LevelFromXp(xp) && id in RewardsForLevel(l) && id !in unlocked ==> Reward(l, id) in r
    ensures forall j, k :: 0 <= j < k < |r| ==> r[j].level <= r[k].level
    ensures forall j, k :: 0 <= j < k < |r| ==> r[j] != r[k]
  {
    PendingFromNoDuplicates(1, LevelFromXp(xp), unlocked);
    PendingFrom(1, LevelFromXp(xp), unlocked)
  }

  /** One reward, not yet unlocked, is pending. */
  lemma SingleUnclaimed(level: int, id: int, unlocked: seq<int>)
    ensures Unclaimed(level, [id], unlocked) == (if id in unlocked then [] else [Reward(level, id)])
  {
    assert [id][1..] == [];
  }

  /** One level's step of the pending-rewards loop, for a level with one reward card. */
  lemma PendingStep(l: int, top: int, id: int, unlocked: seq<int>)
    requires l <= top
    requires RewardsForLevel(l) == [id]
    ensures PendingFrom(l, top, unlocked) ==
            (if id in unlocked then [] else [Reward(l, id)]) + PendingFrom(l + 1, top, unlocked)
  {
    SingleUnclaimed(l, id, unlocked);
  }

  /** A new player at 100 points has Iron Man (id 1) waiting. */
  lemma PendingAt100()
    ensures PendingRewards(100, []) == [Reward(2, 1)]
  {
    LevelExamples();
    assert RewardsForLevel(1) == [];
    PendingStep(2, 2, 1, []);
  }

  lemma PendingLevels4To6()
    ensures PendingFrom(4, 6, []) == [Reward(4, 2), Reward(5, 7), Reward(6, 5)]
  {
    PendingStep(6, 6, 5, []);
    PendingStep(5, 6, 7, []);
    assert PendingFrom(5, 6, []) == [Reward(5, 7), Reward(6, 5)];
    PendingStep(4, 6, 2, []);
  }

  /** At 1200 points the rewards of levels 2 to 6 wait, in level order. */
  lemma PendingAt1200()
    ensures PendingRewards(1200, []) ==
            [Reward(2, 1), Reward(3, 4), Reward(4, 2), Reward(5, 7), Reward(6, 5)]
  {
    assert LevelFromXp(1200) == 6 by {
      LevelExamples();
    }
    assert RewardsForLevel(1) == [];
    PendingLevels2To6();
  }

  lemma PendingLevels2To6()
    ensures PendingFrom(2, 6, []) == [Reward(2, 1), Reward(3, 4), Reward(4, 2), Reward(5, 7), Reward(6, 5)]
  {
    PendingLevels3To6();
    PendingCons(2, 6, 1, [], [Reward(3, 4), Reward(4, 2), Reward(5, 7), Reward(6, 5)]);
  }

  lemma PendingLevels3To6()
    ensures PendingFrom(3, 6, []) == [Reward(3, 4), Reward(4, 2), Reward(5, 7), Reward(6, 5)]
  {
    PendingLevels4To6();
    PendingCons(3, 6, 4, [], [Reward(4, 2), Reward(5, 7), Reward(6, 5)]);
  }

  /** A level whose one reward card is not unlocked puts that reward before the rest. */
  lemma PendingCons(l: int, top: int, id: int, unlocked: seq<int>, tail: seq<Reward>)
    requires l <= top && RewardsForLevel(l) == [id] && id !in unlocked
    requires PendingFrom(l + 1, top, unlocked) == tail
    ensures PendingFrom(l, top, unlocked) == [Reward(l, id)] + tail
  {
    PendingStep(l, top, id, unlocked);
  }

  /** Cards already unlocked are not offered again. */
  lemma PendingAt1200Claimed()
    ensures PendingRewards(1200, [1, 4, 2]) == [Reward(5, 7), Reward(6, 5)]
  {
    assert LevelFromXp(1200) == 6 by {
      LevelExamples();
    }
    assert RewardsForLevel(1) == [];
    ClaimedLevels2To6();
  }

  lemma ClaimedLevels4To6()
    ensures PendingFrom(4, 6, [1, 4, 2]) == [Reward(5, 7), Reward(6, 5)]
  {
    var unlocked := [1, 4, 2];
    assert 7 !in unlocked && 5 !in unlocked && 2 in unlocked;
    PendingCons(6, 6, 5, unlocked, []);
    PendingCons(5, 6, 7, unlocked, [Reward(6, 5)]);
    PendingSkip(4, 6, 2, unlocked);
  }

  lemma ClaimedLevels2To6()
    ensures PendingFrom(2, 6, [1, 4, 2]) == [Reward(5, 7), Reward(6, 5)]
  {
    var unlocked := [1, 4, 2];
    assert 1 in unlocked && 4 in unlocked;
    ClaimedLevels4To6();
    PendingSkip(3, 6, 4, unlocked);
    PendingSkip(2, 6, 1, unlocked);
  }

  /** A level whose one reward card is already unlocked adds nothing. */
  lemma PendingSkip(l: int, top: int, id: int, unlocked: seq<int>)
    requires l <= top && RewardsForLevel(l) == [id] && id in unlocked
    ensures PendingFrom(l, top, unlocked) == PendingFrom(l + 1, top, unlocked)
  {
    PendingStep(l, top, id, unlocked);
  }
}
